=== FILE: README.md ===
# Inferno USB creator: a Dafny model of the write pipeline

Inferno is a Windows tool that turns an ISO image into a bootable USB drive.
One click on START runs a fixed pipeline on a worker thread:

1. analyse the image;
2. format the drive with `format.com`;
3. copy the image to the raw device in 1 MiB chunks;
4. install a boot sector with `bootsect` for UEFI images;
5. optionally read the device back and compare it with the image;
6. optionally add a persistent partition with a `diskpart` script.

The device list that feeds the START button comes from a scan of the 26
drive letters. A backup and restore of a whole device use the same chunked
loops.

This project models that core as pure functions and sequential methods over
immutable values:

- A device is a sequence of bytes with an "opens" flag (`Chunks.Target`).
- Every answer from the operating system is a parameter:
  - whether a file or handle opens;
  - each chunk's `WriteFile` and `ReadFile` result;
  - each child process's exit status and what it does to the disk;
  - the logical-drive mask, the drive types, volume labels and sizes;
  - the administrator check and the user's answers to dialogs.
- The user's cancel click becomes a `CancelFlag`: either it is never set, or
  it is set before poll number *k*. The worker's polls are numbered in
  order, and once the flag is set, every later poll reads it set.

The modules follow the program:

- `Util`: Option, substrings, substring search.
- `Decimal`: `std::to_wstring`.
- `IsoInspect`: AnalyzeISO.
- `Chunks`: the shared 1 MiB loop arithmetic, the fake device, progress, the cancel flag.
- `BlockWriter`: WriteISOToUSB.
- `Verifier`: VerifyWrite.
- `Backup`: BackupUSB and RestoreUSB.
- `Commands`: the format, bootsect and diskpart command builders.
- `DeviceCatalog`: EnumerateUSBDevices and FormatSize.
- `Orchestrator`: StartOperation and its worker.

Where the code's behaviour is not what its messages and names suggest, the
model follows the code:

- The worker raises "Cancelled" only from its two checks right after the
  format and right after the copy (Inferno.cpp:750 and 758). A cancel click
  that the copy loop itself sees (Inferno.cpp:394, 419-422) makes
  WriteISOToUSB return false, and the worker reports every false as
  "Write failed" (Inferno.cpp:754-755).
- Past Inferno.cpp:758 the flag only guards the verification and the
  persistent partition (Inferno.cpp:767 and 774). A click first seen there
  skips those steps, and the run still reaches the success message
  (Inferno.cpp:779-782).
- VerifyWrite is called after MakeBootable (Inferno.cpp:762-768), so it
  reads back the device as bootsect left it, not as the copy left it.
- The ISOInfo bootType field is commented as BIOS, UEFI or Hybrid
  (Inferno.cpp:107), and MakeBootable tests for "Hybrid" (Inferno.cpp:431).
  AnalyzeISO only ever assigns "Unknown", "UEFI" or "BIOS"
  (Inferno.cpp:300, 323, 325).
- RestoreUSB ignores the result of WriteFile (Inferno.cpp:665). A refused
  chunk does not move the device pointer, so the next chunk is written
  where the refused one should have gone.

## Model

| member | source | states |
|---|---|---|
| IsoInspect.AnalyzeIso | Inferno.cpp:296-331 | An unopenable file is not bootable and has type Unknown. Otherwise the image is bootable exactly when bytes 1..5 of sector 16 (offset 0x8000) read "CD001". A bootable image is UEFI exactly when "EFI" or "efi" occurs anywhere in the file, and BIOS otherwise. Hybrid is never produced. |
| IsoInspect.BootableIgnoresTypeAndVersion | Inferno.cpp:311-316 | Only the five identifier bytes decide bootability. Two images that agree on them are classified alike, whatever their descriptor type and version bytes. |
| Util.FindFromStartIffContains | Inferno.cpp:322 | The search from the start finds the pattern exactly when it occurs somewhere in the text. |
| Decimal.DecimalRoundTrip | Inferno.cpp:514 | The decimal text that to_wstring gives for a number reads back as that number. |
| Chunks.ChunkAdvance | Inferno.cpp:394-398 | One pass of a read-until-end-of-file loop from a chunk boundary reads chunk pos/1 MiB. A full read lands on the next boundary; a short read reaches the end, after the stream's last read. |
| Chunks.ReadsCoverStream | Inferno.cpp:394-396 | An n-byte stream takes n/1 MiB + 1 reads, the last one short. That covers every non-empty chunk. |
| Chunks.PercentBounds | Inferno.cpp:409 | The progress value `bytes*100/total` never exceeds 100, and it is exactly 100 once every byte is done. |
| Chunks.PercentMonotone | Inferno.cpp:408-410 | More bytes done never gives a lower progress value. |
| Chunks.ProgressStep | Inferno.cpp:408-410 | Appending the percentage for a larger byte count keeps a progress trace bounded by 100 and never decreasing. |
| BlockWriter.CopyChunks | Inferno.cpp:394-412 | The loop polls the cancel flag before every read, and the device always holds a prefix of the image over its old bytes. It ends in one of three ways: the stream is exhausted after ReadCount reads, a write is refused at that chunk, or the cancel flag is first seen at that chunk boundary. Its progress values are one per written chunk, in order. |
| BlockWriter.ExitCause | Inferno.cpp:394-422 | The loop ends on a refused write exactly when the first chunk the device refuses comes before every poll that sees the cancel flag. A loop stopped by the flag leaves it set for the check after the flush. |
| BlockWriter.WriteIsoToUsb | Inferno.cpp:368-426 | Each status is reported exactly when its cause occurs. The image failing to open gives IsoOpenFailed. The device failing to open after it gives DeviceOpenFailed. A refused chunk before any poll that sees the flag gives WriteFault. Otherwise a flag seen by the check after the flush gives Cancelled. The copy succeeds exactly when both files open, the image fits, every chunk is accepted and the flag is still clear after the flush. On success the device starts with the whole image, the count equals the image size and the last progress value is 100. An unopened file leaves the device untouched. Every chunk counted was let through. A refused write stops at the first refused chunk without a flush. A cancel stops at the chunk boundary where it was seen, after a flush. |
| Verifier.CompareChunks | Inferno.cpp:478-498 | Passes exactly when every chunk can be read and the device begins with the image. A failure points at the first chunk that could not be read or differs; every byte before it matched. |
| Verifier.VerifyWrite | Inferno.cpp:451-507 | True exactly when both files open, every read succeeds and the device begins with the image. It first reports 0%, and on success with a non-empty image it ends at 100%. |
| Verifier.WrittenImageVerifies | Inferno.cpp:478-498 | Round trip with the copy: a device holding the image over its old bytes passes verification when every read goes through. |
| Verifier.OneByteDifferenceFails | Inferno.cpp:489-492 | A single differing byte anywhere within the image's range fails verification. |
| Backup.BackupUsb | Inferno.cpp:596-634 | Reports success exactly when the device and the backup file open; on failure nothing is copied and no progress is shown. The backup is always a prefix of the device, read chunk by chunk. It stops only at the reported drive size, at the end of the device (a read of no bytes) or at the first refused read, and it never starts a chunk at or past the reported size. A failed size query (GetDriveSize, Inferno.cpp:185-200, answers 0) yields an empty backup that still counts as success. There is one progress value per chunk read: the bytes read so far times 100 over the reported size. Those values stay within 0..100 and never fall when the reported size covers the device. |
| Backup.RestoreChunk | Inferno.cpp:663-670 | One unchecked `WriteFile` at the device pointer. A taken chunk (the write is let through and fits) is written at the pointer, which moves on by the chunk's length. A refused chunk leaves the device and the pointer unchanged. Bytes past the new pointer never change. |
| Backup.RestoredKeepsBelow | Inferno.cpp:663-666 | In the chunk-by-chunk placement of the restore, bytes below the device pointer are never written again. |
| Backup.RefusedChunkShiftsNext | Inferno.cpp:663-666 | With the first chunk refused and the second taken, the second chunk lands at offset 0, where the first belonged. |
| Backup.RestoreTaken | Inferno.cpp:663-670 | A chunk the device takes lands at the pointer and keeps the restore invariant: chunks before the first refusal sit at their own offsets, and nothing past the pointer changes. |
| Backup.RestoreRefused | Inferno.cpp:663-670 | A refused chunk leaves the device and the pointer unchanged, and the read position still advances. The restore invariant is kept. |
| Backup.RestoreLoop | Inferno.cpp:659-671 | The restore loop over an opened backup and device ends with the device and byte count of the chunk-by-chunk placement. The restore invariant holds at the end, and the progress values stay within 0..100 and never decrease. |
| Backup.RestoreUsb | Inferno.cpp:636-680 | Reports success exactly when the backup and the device open, whatever each write did. The device and the byte count are those of the chunk-by-chunk placement: each taken chunk lands at the pointer and adds its length, and each refused one is dropped. Everything before the first refused chunk is restored in place, and nothing past the written byte count changes. With no refusal, the device starts with the whole backup. |
| Commands.FileSystemFor | Inferno.cpp:729-730 | Combo-box entry 0 gives FAT32 and entry 1 gives NTFS. Every other value, including no selection, gives exFAT. |
| Commands.FormatCommand | Inferno.cpp:337-345 | The command starts "format " followed by the drive taken from the device path. Right after the drive come " /FS:" and the file system, and the command always ends with the no-questions switch " /Y". |
| Commands.FormatDrive | Inferno.cpp:333-366 | Launches the format command line and succeeds exactly when the process is created and exits with code 0. |
| Commands.SwitchesRoundTrip | Inferno.cpp:339-345 | The switch text " /Q"?, " /V:label"?, " /Y" reads back as the quick flag and the label it was built from. |
| Commands.FormatCommandRoundTrip | Inferno.cpp:337-345 | The format command line determines the drive (characters 4 and 5 of the device path), the file system, the quick flag and the label it was built from. This holds whenever the file-system name has no space. |
| Commands.SplitAtConcat | Inferno.cpp:337 | Splitting at the first separator recovers the two parts, when the first part has no separator and the second is empty or starts with it. |
| Commands.MakeBootable | Inferno.cpp:428-449 | Launches `bootsect /nt60 X: /mbr /force` exactly for a UEFI or Hybrid image. It ignores whether the process ran and always reports success. |
| Commands.CreatePersistentPartition | Inferno.cpp:509-541 | Hands diskpart the four-line script. It reports success exactly when the process could be created, whatever its exit code. |
| Commands.SplitJoinLines | Inferno.cpp:513-516 | Lines without newlines, joined with a newline after each, split back into the same lines. |
| Commands.DiskpartLinesShape | Inferno.cpp:513-516 | The script has four newline-free lines. The disk selector is character 4 of the device path, and the size line is the fixed prefix followed by the decimal megabyte count. |
| Commands.DiskpartScriptReadsBack | Inferno.cpp:512-516 | Reading the script text back gives four lines, with the selector being the drive letter. The size line parses as sizeGB*1024 whenever that product does not wrap at 2^64. |
| DeviceCatalog.UnitIndexUnique | Inferno.cpp:139-152 | The unit FormatSize picks is the only index from B to TB that brackets the byte count: 1024^u <= bytes < 1024^(u+1), with TB open above. |
| DeviceCatalog.ScaleSize | Inferno.cpp:143-146 | The division loop stops at that unit, and below TB it leaves a value under 1024. The value it reaches is the byte count divided by 1024^unit, taken exactly as an integer (see Left out for the code's rounding). |
| DeviceCatalog.FormatSize | Inferno.cpp:139-152 | The text splits into the number text for the chosen unit, one space, and the unit name. |
| DeviceCatalog.DeviceName | Inferno.cpp:218-234 | The name starts with the letter and a colon and ends with " - " and the formatted size. The label appears in parentheses right after the colon exactly when the label query succeeds with a non-empty label. |
| DeviceCatalog.ProbeDrive | Inferno.cpp:210-236 | A drive letter yields its entry exactly when its mask bit is set, the drive is removable and its size query is non-zero, and nothing otherwise. |
| DeviceCatalog.EnumerateUsbDevices | Inferno.cpp:205-242 | The list holds exactly the qualifying drives' entries, in strictly increasing letter order. Each entry is removable, has a non-zero size and the raw path `\\.\X:`, and its name begins "X:". |
| DeviceCatalog.EntriesWellFormed | Inferno.cpp:209-239 | The entries of the kept letters, taken in scan order, form a list that is sorted by letter, has well-shaped entries, includes every qualifying letter, and holds only the entries of qualifying letters. |
| DeviceCatalog.KeptSound | Inferno.cpp:209-210 | Every drive index the scan keeps passes the test, and it lies at or after the scan's starting index. |
| DeviceCatalog.KeptComplete | Inferno.cpp:209-210 | Every drive index that passes the test is kept. |
| DeviceCatalog.KeptAscending | Inferno.cpp:209 | The kept indices are strictly increasing. |
| DeviceCatalog.DriveOfDevicePath | Inferno.cpp:219 | For an enumerated path, characters 4 and 5, which the format and bootsect commands take, are exactly "X:". Character 4, which the diskpart script takes, is the letter. |
| Orchestrator.StartOperation | Inferno.cpp:682-715 | A click during a run only raises the cancel flag. Otherwise the checks run in order, and each refusal is reported exactly when the checks before it pass and its own fails. The order is administrator, then device selection, then ISO path, then the user's confirmation. The run launches exactly when all of them pass. A failed check changes nothing. The selected device path is recorded before the confirmation dialog, and declining changes nothing else. |
| Orchestrator.CancelRequestIdempotent | Inferno.cpp:683-686 | A second click during a run changes nothing more than the first: raising the cancel flag is idempotent. |
| Orchestrator.LabelText | Inferno.cpp:726-727 | The label read from the edit box is the typed text cut to 255 characters (counted as in Left out). |
| Orchestrator.CancelDuringCopyIsWriteFailure | Inferno.cpp:750-758 | After a clean format, a cancel first seen at any of the copy's polls, or at its check after the flush, ends the run as "Write failed". |
| Orchestrator.CancelBeforeVerifyCompletes | Inferno.cpp:758-779 | A cancel first seen at the verification poll skips verification and the persistent partition, and a run whose format and copy went through ends as a success. |
| Orchestrator.LateCancelKeepsOutcome | Inferno.cpp:774-779 | A cancel first seen at the persistent-partition poll, or later, gives the same outcome as a flag never set; diskpart is still skipped (see LateCancelDropsDiskpart). |
| Orchestrator.LateCancelDropsDiskpart | Inferno.cpp:774-776 | A cancel first seen at the persistent-partition poll removes exactly the diskpart run that a clear flag would have launched after a copy that went through and a verification that did not fail; every earlier child process is unchanged. |
| Orchestrator.CleanRunCompletes | Inferno.cpp:744-779 | The run completes when the format is clean, every chunk is written and read back, and there is no cancel. Whatever bootsect does to the device, if it runs, must leave the image in place. |
| Orchestrator.FinishRun | Inferno.cpp:760-777 | Fails exactly when verification was asked for, the flag was clear at its poll, and the device as bootsect left it does not verify. The child processes are exactly these: bootsect when the image is UEFI or Hybrid, then diskpart on the fixed 4 GB script when persistence was asked for, verification did not fail and the flag was clear at its poll. The device is the one bootsect left, or what diskpart made of it when diskpart ran. |
| Orchestrator.CopyPhase | Inferno.cpp:753-756 | The copy succeeds exactly when WriteISOToUSB would on the formatted device. Then the device is the image over the formatted bytes, and the next poll is the one after the copy. Whatever the outcome, the device holds the formatted bytes with some prefix of the image over them. |
| Orchestrator.CopyAndFinish | Inferno.cpp:753-790 | The run from the copy on ends as the code's order of checks dictates. Its last progress value is 100 exactly on success and 0 exactly on failure. A failed copy, or a cancel seen right after it, launches nothing and leaves the formatted device with a prefix of the image over it. Otherwise the child processes are exactly bootsect (for UEFI or Hybrid images) and then diskpart (when asked for, verification did not fail and the flag was clear), and the device is what they left. |
| Orchestrator.Worker | Inferno.cpp:721-790 | The run ends as the code's order of checks dictates. The format command, with the label cut to the buffer, is always the first child process, and a failed format aborts with nothing written. The not-bootable warning is logged exactly for a non-bootable image. Progress starts at 5, stays within 0..100, and ends at 100 exactly on success and at 0 exactly on failure. A finished run without bootsect or diskpart leaves the image at the start of the device. The child processes are exactly the format command, then, only when the format succeeded, the flag was clear after it and the copy went through, bootsect and diskpart as the run dictates. In that case the device is what they left; in every other case it is the formatted device (or the untouched one when format.com never ran) with some prefix of the image over it. |
| Orchestrator.RunOperation | Inferno.cpp:682-797 | A launched click runs the worker on the recorded device path, and the running flag is cleared whatever the outcome. The first child process formats the device the user selected in the list. The full list of child processes, the device left behind and the progress (from 5, within 0..100, ending at 100 exactly on success and at 0 exactly on failure) are the worker's for that device and the selected image. Any other click leaves the state exactly as the guards left it. |

## Left out

- The window, its controls, dialogs, menus, the log pane, the settings and about dialogs, and the progress bar widget. Progress is recorded as the sequence of values passed to UpdateProgress.
- IsAdmin and ElevateProcess: the administrator check is a boolean input, and elevation is not modelled.
- LogMessage text. Only the not-bootable warning is kept, because the worker's contract is about it.
- TestUSBSpeed, EnableSecureBoot, CreateMultiBootUSB, RefreshDeviceList and BrowseForISO: they are outside the write pipeline.
- Threads and atomics: the worker is one sequential method. The user's click is a CancelFlag read at numbered polls; the flag is sticky because the program only ever sets it to true during a run.
- What format.com, bootsect and diskpart do to the disk is an effect function given as input. The model does not write the script to `C:\temp_diskpart.txt` and does not delete it afterwards.
- Commands.CreatePersistentPartition: the recorded command is the script text, not the `diskpart /s C:\temp_diskpart.txt` line that refers to it.
- Orchestrator.Worker: the persistent-partition size edit box is never read, because the code passes the constant 4.
- The device model refuses a transfer that runs past the device's end. Short read and write counts from `ReadFile` and `WriteFile` therefore do not arise.
- IsoInspect.AnalyzeIso requires an opened file to cover sector 16 in full (0x8800 bytes). A shorter file takes the code down paths that depend on stream state rather than on the image. Below 0x8006 bytes the identifier test at Inferno.cpp:315 reads uninitialised buffer bytes. From 0x8006 to 0x87FF bytes the short read at Inferno.cpp:313 does fill bytes 1..5, so the test sees real bytes. But the read leaves the stream failed, so the rewind at Inferno.cpp:319 does nothing and the read at Inferno.cpp:320 yields no bytes. Such a file carrying "CD001" is therefore reported as BIOS whatever it contains.
- The `%.2f` rendering of a double in FormatSize is an input function of the byte count and the unit. The unit choice is modelled exactly.
- DeviceCatalog.ScaleSize: `scaled` is the exact integer quotient of the byte count by 1024^unit, while the code keeps a double with its fraction (1536 bytes give 1.5 KB, shown with two decimals). Below 2^53 bytes (8 PiB) `scaled` is the integer part of the code's value. From there on the code's conversion to a double may round, so its value can differ from the exact quotient. The unit choice is unaffected, because every threshold 1024^k is exactly a double and dividing by 1024 is exact.
- Orchestrator.LabelText: counts the label in Unicode scalar values. GetWindowText counts UTF-16 code units, so the code keeps fewer characters of a label that holds characters outside the Basic Multilingual Plane, and it can split a surrogate pair at the limit.
- Commands.DriveOf, BootsectCommand and DiskpartLines require a device path of at least 4 characters, because `substr(4, …)` throws std::out_of_range on a shorter one. Enumerated paths have 6.
- BlockWriter.WriteIsoToUsb: reads of the image file always deliver the whole file, and so do Verifier.VerifyWrite's. The loops at Inferno.cpp:394 and 478 test only end of file. A read error that the file buffer reports partway through the image as end of file sets the stream's end-of-file and fail states, so the code ends the copy as if the image were complete: WriteISOToUSB returns true with fewer bytes written, and the verification compares only what was read. The model has no oracle for image reads, so its `ok ==> bytesWritten == |iso.value|` holds only because those reads cannot fail.
- BlockWriter.WriteIsoToUsb: does not model the 64-bit overflow of `bytesWritten * 100`, which only matters for images above about 1.8e17 bytes. Verifier.VerifyWrite and the backup loops have the same limit.
- Commands.SizeMegabytes wraps at 2^64 as ULONGLONG does. Commands.DiskpartScriptReadsBack states the read-back only when the product does not wrap.
- The ISO file is one value and the device-open answer is one value, each shared by every step that opens it. The model does not treat the file changing between steps.
- Backup.BackupUsb: the backup file's own write errors are not modelled, because the code does not check them.
- Backup.BackupUsb: progress is promised to stay within 0..100 and never to fall only when the reported drive size covers the device. When the disk geometry reports less than the volume holds, the last chunk can carry the byte count past the size, and the code's percentage then exceeds 100. The 64-bit overflow of `bytesRead * 100` above about 1.8 * 10^17 bytes is not modelled.
- IsoInspect.AnalyzeIso: the whole image is read into memory (Inferno.cpp:320). For a very large image that allocation can throw, and the worker's catch (Inferno.cpp:784-790) then ends the run before the format, showing "Operation failed: " and the exception text at progress 0. The model treats that read as always succeeding.

=== FILE: backup.dfy ===
/** Device backup and restore: the same 1 MiB loops as the image copy, but
    with weaker error handling. Once both handles are open they report
    success whatever the individual reads and writes did. */
module Backup {
  import opened Util
  import opened Chunks

  /** The bytes of the backup that reach the device at their own offsets:
      everything before the first refused chunk. */
  ghost function CleanBytes(writeOk: nat -> bool, n: nat, size: nat): nat
  {
    Min(CleanChunks(writeOk, n, size, 0) * ChunkSize, n)
  }

  /** The restore from chunk offset `pos` on, with the device pointer at
      `written`: each chunk the device takes lands at the pointer and moves
      it on by the chunk's length, and a refused chunk is dropped with the
      pointer left where it was. The pair is the device's bytes and the
      pointer at the end, which is also the byte count the loop adds up.
      Nothing below the pointer is touched again. */
  ghost function Restored(dev: seq<byte>, image: seq<byte>, writeOk: nat -> bool,
                          pos: nat, written: nat): (r: (seq<byte>, nat))
    requires pos <= |image| && written <= |dev|
    ensures |r.0| == |dev|
    ensures written <= r.1 <= |dev|
    decreases |image| - pos
  {
    if pos == |image| then (dev, written)
    else
      var b := Min(ChunkSize, |image| - pos);
      if writeOk(pos / ChunkSize) && written + b <= |dev|
      then Restored(Overwrite(dev, written, image[pos..pos + b]), image, writeOk, pos + b, written + b)
      else Restored(dev, image, writeOk, pos + b, written)
  }

  /** Nothing below the pointer is touched again. */
  lemma {:induction false} RestoredKeepsBelow(dev: seq<byte>, image: seq<byte>, writeOk: nat -> bool,
                                              pos: nat, written: nat)
    requires pos <= |image| && written <= |dev|
    ensures forall i :: 0 <= i < written ==> Restored(dev, image, writeOk, pos, written).0[i] == dev[i]
    decreases |image| - pos
  {
    if pos < |image| {
      var b := Min(ChunkSize, |image| - pos);
      if writeOk(pos / ChunkSize) && written + b <= |dev| {
        RestoredKeepsBelow(Overwrite(dev, written, image[pos..pos + b]), image, writeOk, pos + b, written + b);
      } else {
        RestoredKeepsBelow(dev, image, writeOk, pos + b, written);
      }
    }
  }

  /** With the first chunk refused and the second taken, the second chunk
      lands at offset 0, where the first belonged: a refused write shifts
      every later chunk of the restore down the device. */
  lemma RefusedChunkShiftsNext(content: seq<byte>, image: seq<byte>, writeOk: nat -> bool)
    requires ChunkSize < |image|
    requires !writeOk(0) && writeOk(1)
    requires Min(ChunkSize, |image| - ChunkSize) <= |content|
    ensures var b := Min(ChunkSize, |image| - ChunkSize);
            forall i :: 0 <= i < b ==> Restored(content, image, writeOk, 0, 0).0[i] == image[ChunkSize + i]
  {
    var b := Min(ChunkSize, |image| - ChunkSize);
    assert Restored(content, image, writeOk, 0, 0) == Restored(content, image, writeOk, ChunkSize, 0);
    var moved := Overwrite(content, 0, image[ChunkSize..ChunkSize + b]);
    assert Restored(content, image, writeOk, ChunkSize, 0)
        == Restored(moved, image, writeOk, ChunkSize + b, b);
    RestoredKeepsBelow(moved, image, writeOk, ChunkSize + b, b);
  }

  /** One chunk of the restore loop: where the device pointer stands, what
      has reached the device, and that nothing past the pointer changed. */
  ghost predicate RestoreInvariant(dev: seq<byte>, content: seq<byte>, image: seq<byte>,
                                   clean: nat, pos: nat, written: nat)
  {
    && |dev| == |content|
    && written <= pos <= |image|
    && written <= |dev|
    && (pos <= clean ==> written == pos)
    && (clean <= pos ==> clean <= written)
    && clean <= |image|
    && (forall i :: 0 <= i < Min(written, clean) ==> dev[i] == image[i])
    && (forall i :: written <= i < |dev| ==> dev[i] == content[i])
  }

  /** A chunk before the first refusal ends no later than the clean bytes. */
  lemma CleanChunkInside(writeOk: nat -> bool, n: nat, size: nat, pos: nat)
    requires pos % ChunkSize == 0 && pos < n
    requires pos < CleanBytes(writeOk, n, size)
    ensures var k := pos / ChunkSize;
            && k < CleanChunks(writeOk, n, size, 0)
            && ChunkTaken(writeOk, n, size, k)
            && ChunkEnd(n, k) <= CleanBytes(writeOk, n, size)
  {
    var c := CleanChunks(writeOk, n, size, 0);
    var k := pos / ChunkSize;
    assert pos == k * ChunkSize;
    if k >= c {
      assert false;
    }
    MultiplyLe(k + 1, c, ChunkSize);
  }

  /** The chunk at the first refusal is refused at the pointer too, since
      the pointer has kept up with the chunks so far. */
  lemma RefusedAtClean(writeOk: nat -> bool, n: nat, size: nat, pos: nat)
    requires pos % ChunkSize == 0 && pos < n
    ensures pos == CleanBytes(writeOk, n, size) ==> !ChunkTaken(writeOk, n, size, pos / ChunkSize)
  {
    if pos == CleanBytes(writeOk, n, size) {
      var c := CleanChunks(writeOk, n, size, 0);
      var k := pos / ChunkSize;
      ChunkIndexInRange(pos, n);
      assert pos == c * ChunkSize;
      assert k == c;
    }
  }

  /** A chunk the device takes is written at the pointer and keeps the
      restore invariant. */
  lemma RestoreTaken(dev: seq<byte>, content: seq<byte>, image: seq<byte>, writeOk: nat -> bool,
                     pos: nat, written: nat)
    requires pos % ChunkSize == 0 && pos < |image|
    requires RestoreInvariant(dev, content, image, CleanBytes(writeOk, |image|, |content|), pos, written)
    requires writeOk(pos / ChunkSize) && written + Min(ChunkSize, |image| - pos) <= |dev|
    ensures var b := Min(ChunkSize, |image| - pos);
            RestoreInvariant(Overwrite(dev, written, image[pos..pos + b]), content, image,
                             CleanBytes(writeOk, |image|, |content|), pos + b, written + b)
  {
    var n := |image|;
    var clean := CleanBytes(writeOk, n, |content|);
    ChunkAdvance(pos, n);
    RefusedAtClean(writeOk, n, |content|, pos);
    if pos < clean {
      CleanChunkInside(writeOk, n, |content|, pos);
    }
  }

  /** A chunk the device refuses leaves the device and the pointer as they
      were, and keeps the restore invariant. */
  lemma RestoreRefused(dev: seq<byte>, content: seq<byte>, image: seq<byte>, writeOk: nat -> bool,
                       pos: nat, written: nat)
    requires pos % ChunkSize == 0 && pos < |image|
    requires RestoreInvariant(dev, content, image, CleanBytes(writeOk, |image|, |content|), pos, written)
    requires !(writeOk(pos / ChunkSize) && written + Min(ChunkSize, |image| - pos) <= |dev|)
    ensures RestoreInvariant(dev, content, image, CleanBytes(writeOk, |image|, |content|),
                             pos + Min(ChunkSize, |image| - pos), written)
  {
    var n := |image|;
    var clean := CleanBytes(writeOk, n, |content|);
    ChunkAdvance(pos, n);
    RefusedAtClean(writeOk, n, |content|, pos);
    if pos < clean {
      CleanChunkInside(writeOk, n, |content|, pos);
    }
  }

  /** One WriteFile call of the restore loop, at the device pointer. */
  method RestoreChunk(dev: seq<byte>, content: seq<byte>, image: seq<byte>, writeOk: nat -> bool,
                      pos: nat, written: nat)
    returns (next: seq<byte>, nextWritten: nat)
    requires pos % ChunkSize == 0 && pos < |image|
    requires RestoreInvariant(dev, content, image, CleanBytes(writeOk, |image|, |content|), pos, written)
    ensures written <= nextWritten <= pos + Min(ChunkSize, |image| - pos) <= |image|
    ensures var end := pos + Min(ChunkSize, |image| - pos); end % ChunkSize == 0 || end == |image|
    ensures RestoreInvariant(next, content, image, CleanBytes(writeOk, |image|, |content|),
                             pos + Min(ChunkSize, |image| - pos), nextWritten)
    // a taken chunk lands at the pointer and moves it on; a refused one changes nothing
    ensures var b := Min(ChunkSize, |image| - pos);
            nextWritten == if writeOk(pos / ChunkSize) && written + b <= |dev| then written + b else written
    ensures var b := Min(ChunkSize, |image| - pos);
            next == if nextWritten > written then Overwrite(dev, written, image[pos..pos + b]) else dev
    ensures Restored(next, image, writeOk, pos + Min(ChunkSize, |image| - pos), nextWritten)
         == Restored(dev, image, writeOk, pos, written)
  {
    var b := Min(ChunkSize, |image| - pos);
    ChunkAdvance(pos, |image|);
    if writeOk(pos / ChunkSize) && written + b <= |dev| {
      RestoreTaken(dev, content, image, writeOk, pos, written);
      next, nextWritten := Overwrite(dev, written, image[pos..pos + b]), written + b;
    } else {
      RestoreRefused(dev, content, image, writeOk, pos, written);
      next, nextWritten := dev, written;
    }
  }

  /** At the end of the backup the invariant gives the restore's promises. */
  lemma RestoreDone(dev: seq<byte>, content: seq<byte>, image: seq<byte>, clean: nat, written: nat)
    requires RestoreInvariant(dev, content, image, clean, |image|, written)
    ensures clean <= written
    ensures forall i :: 0 <= i < clean ==> dev[i] == image[i]
    ensures clean == |image| ==> written == |image| && HoldsPrefix(dev, content, image)
  {}

  /** The restore's chunk loop, which runs to the end of the backup file,
      over a backup and a device that both opened. */
  method RestoreLoop(image: seq<byte>, content: seq<byte>, writeOk: nat -> bool)
    returns (dev: seq<byte>, bytesWritten: nat, progress: seq<nat>)
    ensures (dev, bytesWritten) == Restored(content, image, writeOk, 0, 0)
    ensures RestoreInvariant(dev, content, image, CleanBytes(writeOk, |image|, |content|),
                             |image|, bytesWritten)
    ensures ProgressOk(progress)
  {
    var n := |image|;
    ghost var clean := CleanBytes(writeOk, n, |content|);
    ghost var placed := Restored(content, image, writeOk, 0, 0);
    dev := content;
    var pos: nat := 0;
    bytesWritten := 0;
    progress := [];
    // a final read at the end of the file returns no bytes and does nothing
    while pos < n
      invariant pos % ChunkSize == 0 || pos == n
      invariant RestoreInvariant(dev, content, image, clean, pos, bytesWritten)
      invariant Restored(dev, image, writeOk, pos, bytesWritten) == placed
      invariant ProgressOk(progress)
      invariant |progress| > 0 ==> n > 0 && progress[|progress| - 1] == Percent(bytesWritten, n)
      decreases n - pos
    {
      var before := bytesWritten;
      dev, bytesWritten := RestoreChunk(dev, content, image, writeOk, pos, bytesWritten);
      pos := pos + Min(ChunkSize, |image| - pos);
      ProgressStep(progress, before, bytesWritten, n);
      progress := progress + [Percent(bytesWritten, n)];
    }
  }

  /** RestoreUSB over a fake device. The write result is ignored: a refused
      chunk (`writeOk(k)` false, or past the device's end) writes nothing,
      adds nothing to the byte count and leaves the device pointer where it
      was, so the next chunk lands there. */
  method RestoreUsb(backup: Option<seq<byte>>, target: Target, writeOk: nat -> bool)
    returns (ok: bool, dev: seq<byte>, bytesWritten: nat, progress: seq<nat>)
    ensures ok <==> backup.Some? && target.opens
    ensures !ok ==> dev == target.content && bytesWritten == 0 && progress == []
    ensures |dev| == |target.content|
    // nothing past the device pointer changes
    ensures ok ==> bytesWritten <= |backup.value| && bytesWritten <= |dev|
    // every chunk lands at the pointer: the device and the byte count are the
    // ones the chunk-by-chunk placement gives
    ensures ok ==> (dev, bytesWritten) == Restored(target.content, backup.value, writeOk, 0, 0)
    ensures forall i :: bytesWritten <= i < |dev| ==> dev[i] == target.content[i]
    // everything before the first refused chunk is restored in place
    ensures ok ==> var clean := CleanBytes(writeOk, |backup.value|, |target.content|);
                   && clean <= bytesWritten
                   && forall i :: 0 <= i < clean ==> dev[i] == backup.value[i]
    // when no chunk is refused the device starts with the whole backup
    ensures ok && CleanBytes(writeOk, |backup.value|, |target.content|) == |backup.value| ==>
              bytesWritten == |backup.value| && HoldsPrefix(dev, target.content, backup.value)
    ensures ProgressOk(progress)
  {
    if backup.None? || !target.opens {
      return false, target.content, 0, [];
    }
    dev, bytesWritten, progress := RestoreLoop(backup.value, target.content, writeOk);
    RestoreDone(dev, target.content, backup.value,
                CleanBytes(writeOk, |backup.value|, |target.content|), bytesWritten);
    ok := true;
  }

  /** BackupUSB over a fake device. `driveSize` is the answer of the
      drive-size query: the geometry size of the disk holding the volume,
      which may differ from the volume's own length, and 0 when the query
      fails. `readOk(k)` is the oracle answer of ReadFile for chunk k; a read
      at the device's end succeeds with no bytes, which also ends the loop. */
  method BackupUsb(target: Target, backupOpens: bool, driveSize: nat, readOk: nat -> bool)
    returns (ok: bool, backup: seq<byte>, progress: seq<nat>)
    ensures ok <==> target.opens && backupOpens
    ensures !ok ==> backup == [] && progress == []
    ensures IsPrefix(backup, target.content)
    ensures |backup| % ChunkSize == 0 || |backup| == |target.content|
    ensures forall k :: 0 <= k < ChunkCount(|backup|) ==> readOk(k)
    // it stops at the reported size, at the end of the device or at the first refused read
    ensures ok ==> |backup| >= driveSize || |backup| == |target.content| || !readOk(|backup| / ChunkSize)
    // and never starts a chunk at or past the reported size
    ensures |backup| > 0 ==> (ChunkCount(|backup|) - 1) * ChunkSize < driveSize
    // a failed size query ends in "success" with nothing copied
    ensures driveSize == 0 ==> backup == []
    // one progress value per chunk: the bytes read so far against the reported size
    ensures |progress| == ChunkCount(|backup|)
    ensures forall i :: 0 <= i < |progress| ==>
              driveSize > 0 && progress[i] == Percent(ChunkEnd(|target.content|, i), driveSize)
    ensures driveSize >= |target.content| ==> ProgressOk(progress)
  {
    if !target.opens || !backupOpens {
      return false, [], [];
    }
    var dev := target.content;
    var pos: nat := 0;
    progress := [];
    while pos < driveSize
      invariant pos <= |dev|
      invariant pos % ChunkSize == 0 || pos == |dev|
      invariant pos > 0 ==> (ChunkCount(pos) - 1) * ChunkSize < driveSize
      invariant forall k :: 0 <= k < ChunkCount(pos) ==> readOk(k)
      invariant |progress| == ChunkCount(pos)
      invariant forall i :: 0 <= i < |progress| ==>
                  driveSize > 0 && progress[i] == Percent(ChunkEnd(|dev|, i), driveSize)
      invariant driveSize >= |dev| ==> ProgressOk(progress)
      invariant |progress| > 0 ==> progress[|progress| - 1] == Percent(pos, driveSize)
      decreases |dev| - pos
    {
      var read := Min(ChunkSize, |dev| - pos);
      if !readOk(pos / ChunkSize) || read == 0 {
        break;
      }
      ChunkAdvance(pos, |dev|);
      var before := pos;
      pos := pos + Min(ChunkSize, |dev| - pos);
      if driveSize >= |dev| {
        ProgressStep(progress, before, pos, driveSize);
      }
      progress := progress + [Percent(pos, driveSize)];
    }
    return true, dev[..pos], progress;
  }
}

=== FILE: block_writer.dfy ===
/** The image-to-device copy: read the image in 1 MiB chunks and write each
    chunk to the raw device before reading the next, polling the cancel flag
    before every read. */
module BlockWriter {
  import opened Util
  import opened Chunks

  datatype WriteStatus = Written | IsoOpenFailed | DeviceOpenFailed | WriteFault | Cancelled

  /** What one copy did: how it ended, the device's bytes afterwards, the
      byte count it added up, the progress values it emitted, whether the
      device was flushed, and the number of the next cancel poll. */
  datatype WriteReport = WriteReport(
    status: WriteStatus,
    device: seq<byte>,
    bytesWritten: nat,
    progress: seq<nat>,
    flushed: bool,
    nextPoll: nat)

  /** Every non-empty chunk of an n-byte image is let through by the device. */
  ghost predicate AllChunksAccepted(writeOk: nat -> bool, n: nat)
  {
    forall k :: 0 <= k < ChunkCount(n) ==> writeOk(k)
  }

  /** The copy reports success: both files open, the image fits, no chunk
      write is refused, and the cancel flag is still clear at the poll after
      the loop (it is sticky, so it was clear at every earlier poll too). */
  ghost predicate WriteSucceeds(iso: Option<seq<byte>>, target: Target, writeOk: nat -> bool,
                                cancel: CancelFlag, firstPoll: nat)
  {
    && iso.Some?
    && target.opens
    && |iso.value| <= |target.content|
    && AllChunksAccepted(writeOk, |iso.value|)
    && !Seen(cancel, firstPoll + ReadCount(|iso.value|))
  }

  /** Both files open, and the first chunk the device refuses comes before
      any poll that sees the cancel flag: the copy ends on a refused write. */
  ghost predicate RefusedBeforeCancel(iso: Option<seq<byte>>, target: Target, writeOk: nat -> bool,
                                      cancel: CancelFlag, firstPoll: nat)
  {
    && iso.Some?
    && target.opens
    && var c := CleanChunks(writeOk, |iso.value|, |target.content|, 0);
    && c < ChunkCount(|iso.value|)
    && !Seen(cancel, firstPoll + c)
  }

  /** Loop iterations begun before the flag was seen. */
  function IterationsBeforeCancel(cancel: CancelFlag, firstPoll: nat): nat
    requires cancel.SetBeforePoll?
  {
    if cancel.poll <= firstPoll then 0 else cancel.poll - firstPoll
  }

  /** How the chunk loop of the copy ended. */
  datatype LoopExit = SourceExhausted | WriteRefused | CancelSeen

  /** The chunk loop of the copy, which runs until the image is exhausted or
      the cancel flag is seen, over an image and device that both opened. */
  method CopyChunks(image: seq<byte>, content: seq<byte>, writeOk: nat -> bool,
                    cancel: CancelFlag, firstPoll: nat)
    returns (exit: LoopExit, dev: seq<byte>, pos: nat, progress: seq<nat>, poll: nat)
    ensures pos <= |image|
    ensures HoldsPrefix(dev, content, image[..pos])
    ensures forall j :: 0 <= j < ChunkCount(pos) ==> writeOk(j)
    ensures exit == SourceExhausted ==>
      pos == |image| && poll == firstPoll + ReadCount(|image|) && !Seen(cancel, poll - 1)
    ensures exit != SourceExhausted ==> pos % ChunkSize == 0
    ensures exit == WriteRefused ==>
      && pos / ChunkSize < ChunkCount(|image|)
      && !(writeOk(pos / ChunkSize) && ChunkEnd(|image|, pos / ChunkSize) <= |content|)
      && !Seen(cancel, firstPoll + pos / ChunkSize)
    ensures exit == CancelSeen ==>
      && Seen(cancel, firstPoll + pos / ChunkSize)
      && (pos > 0 ==> !Seen(cancel, firstPoll + pos / ChunkSize - 1))
    ensures |progress| == ChunkCount(pos)
    ensures ProgressOk(progress)
    ensures |progress| > 0 ==> |image| > 0 && progress[|progress| - 1] == Percent(pos, |image|)
  {
    var n := |image|;
    dev := content;
    pos := 0;
    var eof := false;
    poll := firstPoll;
    progress := [];
    while !eof
      invariant pos <= n && pos <= |dev|
      invariant !eof ==> pos % ChunkSize == 0
      invariant eof ==> pos == n
      invariant poll == firstPoll + if eof then ReadCount(n) else pos / ChunkSize
      invariant HoldsPrefix(dev, content, image[..pos])
      invariant forall j :: 0 <= j < ChunkCount(pos) ==> writeOk(j)
      invariant poll > firstPoll ==> !Seen(cancel, poll - 1)
      invariant |progress| == ChunkCount(pos)
      invariant ProgressOk(progress)
      invariant |progress| > 0 ==> n > 0 && progress[|progress| - 1] == Percent(pos, n)
      decreases n - pos, if eof then 0 else 1
    {
      if Seen(cancel, poll) {
        return CancelSeen, dev, pos, progress, poll + 1;
      }
      poll := poll + 1;
      var bytesRead := Min(ChunkSize, n - pos);
      eof := bytesRead < ChunkSize;
      if bytesRead > 0 {
        var k := pos / ChunkSize;
        ChunkAdvance(pos, n);
        if !(writeOk(k) && pos + bytesRead <= |dev|) {
          return WriteRefused, dev, pos, progress, poll;
        }
        HoldsPrefixStep(dev, content, image, pos, bytesRead);
        dev := Overwrite(dev, pos, image[pos..pos + bytesRead]);
        var before := pos;
        pos := pos + bytesRead;
        ProgressStep(progress, before, pos, n);
        progress := progress + [Percent(pos, n)];
      }
    }
    exit := SourceExhausted;
  }

  /** How the chunk loop ended, read back as the cause it reports: a refused
      write ends it exactly when the first refused chunk precedes every poll
      that sees the flag, and a loop stopped by the flag leaves it set for
      the check after the flush. */
  lemma ExitCause(image: seq<byte>, content: seq<byte>, writeOk: nat -> bool, cancel: CancelFlag,
                  firstPoll: nat, exit: LoopExit, pos: nat)
    requires pos <= |image| && pos <= |content|
    requires forall j :: 0 <= j < ChunkCount(pos) ==> writeOk(j)
    requires exit == SourceExhausted ==> pos == |image|
    requires exit != SourceExhausted ==> pos % ChunkSize == 0
    requires exit == WriteRefused ==>
      && pos / ChunkSize < ChunkCount(|image|)
      && !(writeOk(pos / ChunkSize) && ChunkEnd(|image|, pos / ChunkSize) <= |content|)
      && !Seen(cancel, firstPoll + pos / ChunkSize)
    requires exit == CancelSeen ==> Seen(cancel, firstPoll + pos / ChunkSize)
    ensures exit == WriteRefused <==>
      RefusedBeforeCancel(Some(image), Target(true, content), writeOk, cancel, firstPoll)
    ensures exit == CancelSeen ==> Seen(cancel, firstPoll + ReadCount(|image|))
  {
    WrittenChunksTaken(writeOk, |image|, |content|, pos);
    var c := CleanChunks(writeOk, |image|, |content|, 0);
    if exit != SourceExhausted {
      assert ChunkCount(pos) == pos / ChunkSize;
      ReadsCoverStream(|image|);
    }
    if exit == WriteRefused {
      assert !ChunkTaken(writeOk, |image|, |content|, pos / ChunkSize);
    }
  }

  /** WriteISOToUSB over a fake device. `writeOk(k)` is the oracle answer of
      WriteFile for chunk k (the fake also refuses a chunk that would run past
      the device's end); `cancel` gives the flag at each poll, numbered from
      `firstPoll`. */
  method WriteIsoToUsb(iso: Option<seq<byte>>, target: Target, writeOk: nat -> bool,
                       cancel: CancelFlag, firstPoll: nat)
    returns (ok: bool, r: WriteReport)
    // each status is reported exactly when its cause occurs
    ensures r.status == IsoOpenFailed <==> iso.None?
    ensures r.status == DeviceOpenFailed <==> iso.Some? && !target.opens
    ensures r.status == WriteFault <==> RefusedBeforeCancel(iso, target, writeOk, cancel, firstPoll)
    ensures r.status == Cancelled <==>
      && iso.Some? && target.opens
      && !RefusedBeforeCancel(iso, target, writeOk, cancel, firstPoll)
      && Seen(cancel, firstPoll + ReadCount(|iso.value|))
    ensures ok <==> r.status == Written
    ensures ok <==> WriteSucceeds(iso, target, writeOk, cancel, firstPoll)
    // the device keeps its size; an unopened file or device leaves it alone
    ensures |r.device| == |target.content|
    ensures !(iso.Some? && target.opens) ==> r.device == target.content && r.bytesWritten == 0 && r.progress == [] && !r.flushed
    // whatever happens, the device holds a whole-chunk prefix of the image
    ensures iso.Some? && target.opens ==>
      && r.bytesWritten <= |iso.value|
      && (r.bytesWritten % ChunkSize == 0 || r.bytesWritten == |iso.value|)
      && HoldsPrefix(r.device, target.content, iso.value[..r.bytesWritten])
      && (forall j :: 0 <= j < ChunkCount(r.bytesWritten) ==> writeOk(j))
    // success: the whole image is on the device, counted and flushed
    ensures ok ==> r.bytesWritten == |iso.value| && IsPrefix(iso.value, r.device) && r.flushed
    ensures ok ==> r.nextPoll == firstPoll + ReadCount(|iso.value|) + 1
    // a refused write stops at once: no later chunk, no flush
    ensures r.status == WriteFault ==>
      && !r.flushed
      && r.bytesWritten % ChunkSize == 0
      && var k := r.bytesWritten / ChunkSize;
      && k < ChunkCount(|iso.value|)
      && !(writeOk(k) && ChunkEnd(|iso.value|, k) <= |target.content|)
      && (forall j :: 0 <= j < k ==> writeOk(j))
      && !Seen(cancel, firstPoll + k)
    // cancellation: flushed, and stopped at the chunk boundary where it was seen
    ensures r.status == Cancelled ==>
      && r.flushed
      && cancel.SetBeforePoll?
      && r.bytesWritten == Min(|iso.value|, IterationsBeforeCancel(cancel, firstPoll) * ChunkSize)
    // progress: one value per chunk written, within 0..100, never decreasing
    ensures |r.progress| == ChunkCount(r.bytesWritten)
    ensures ProgressOk(r.progress)
    ensures ok && |iso.value| > 0 ==> r.progress[|r.progress| - 1] == 100
  {
    if iso.None? {
      return false, WriteReport(IsoOpenFailed, target.content, 0, [], false, firstPoll);
    }
    if !target.opens {
      return false, WriteReport(DeviceOpenFailed, target.content, 0, [], false, firstPoll);
    }
    var image := iso.value;
    var exit, dev, pos, progress, poll := CopyChunks(image, target.content, writeOk, cancel, firstPoll);
    ExitCause(image, target.content, writeOk, cancel, firstPoll, exit, pos);
    if exit == WriteRefused {
      return false, WriteReport(WriteFault, dev, pos, progress, false, poll);
    }
    if exit == CancelSeen {
      // the flag is sticky: after the flush the check below reads it set too
      assert pos == (pos / ChunkSize) * ChunkSize;
      return false, WriteReport(Cancelled, dev, pos, progress, true, poll + 1);
    }
    ReadsCoverStream(|image|);
    // FlushFileBuffers, then the flag is read once more
    if Seen(cancel, poll) {
      return false, WriteReport(Cancelled, dev, pos, progress, true, poll + 1);
    }
    if |image| > 0 {
      PercentBounds(|image|, |image|);
    }
    return true, WriteReport(Written, dev, pos, progress, true, poll + 1);
  }
}

=== FILE: chunks.dfy ===
/** What the chunked transfer loops share: the 1 MiB buffer, how a
    read-until-end-of-file loop cuts a stream into chunks, the fake block device,
    the progress percentage and the cancel flag as the worker sees it. */
module Chunks {
  import opened Util

  /** The 1 MiB buffer of every transfer loop. */
  const ChunkSize: nat := 0x10_0000

  /** Reads a read-until-end-of-file loop makes over an n-byte stream: every read but
      the last returns a full chunk; the last is short (possibly empty) and
      raises eof. */
  function ReadCount(n: nat): nat { n / ChunkSize + 1 }

  /** Non-empty chunks of an n-byte stream. */
  function ChunkCount(n: nat): nat { (n + ChunkSize - 1) / ChunkSize }

  /** One past the last byte of chunk k of an n-byte stream. */
  function ChunkEnd(n: nat, k: nat): nat { Min((k + 1) * ChunkSize, n) }

  lemma ChunkCountOfWhole(m: nat)
    ensures ChunkCount(m * ChunkSize) == m
  {}

  lemma ChunkCountStep(pos: nat, b: nat)
    requires pos % ChunkSize == 0 && 0 < b <= ChunkSize
    ensures ChunkCount(pos + b) == ChunkCount(pos) + 1
    ensures ChunkCount(pos) == pos / ChunkSize
  {
    ChunkCountOfWhole(pos / ChunkSize);
  }

  /** A whole-chunk position short of the end lies inside a non-empty chunk. */
  lemma ChunkIndexInRange(pos: nat, n: nat)
    requires pos % ChunkSize == 0 && pos < n
    ensures pos / ChunkSize < ChunkCount(n)
    ensures ChunkEnd(n, pos / ChunkSize) == Min(pos + ChunkSize, n)
  {}

  /** One pass of a read-until-end-of-file loop from a whole-chunk position short of
      the end: the read returns the next chunk, whose index is pos / ChunkSize;
      a full read leaves a whole-chunk position, a short one reaches the end. */
  lemma ChunkAdvance(pos: nat, n: nat)
    requires pos % ChunkSize == 0 && pos < n
    ensures var b := Min(ChunkSize, n - pos);
            && pos / ChunkSize < ChunkCount(n)
            && ChunkEnd(n, pos / ChunkSize) == pos + b
            && ChunkCount(pos) == pos / ChunkSize
            && ChunkCount(pos + b) == pos / ChunkSize + 1
            && (b == ChunkSize ==> (pos + b) % ChunkSize == 0 && (pos + b) / ChunkSize == pos / ChunkSize + 1)
            && (b < ChunkSize ==> pos + b == n && ReadCount(n) == pos / ChunkSize + 1)
  {
    ChunkIndexInRange(pos, n);
    ChunkCountStep(pos, Min(ChunkSize, n - pos));
  }

  /** The last read is the short one: reading every chunk in full overshoots. */
  lemma ReadsCoverStream(n: nat)
    ensures n < ReadCount(n) * ChunkSize
    ensures ChunkCount(n) <= ReadCount(n)
  {}

  /** The fake block device: writing `data` at `pos` replaces exactly those
      bytes and nothing else. */
  function Overwrite(dev: seq<byte>, pos: nat, data: seq<byte>): (r: seq<byte>)
    requires pos + |data| <= |dev|
    ensures |r| == |dev|
    ensures forall i :: pos <= i < pos + |data| ==> r[i] == data[i - pos]
    ensures forall i :: 0 <= i < |dev| && !(pos <= i < pos + |data|) ==> r[i] == dev[i]
  {
    dev[..pos] + data + dev[pos + |data|..]
  }

  /** `dev` is `content` with its first |data| bytes replaced by `data`. */
  ghost predicate HoldsPrefix(dev: seq<byte>, content: seq<byte>, data: seq<byte>)
  {
    && |dev| == |content|
    && |data| <= |dev|
    && (forall i :: 0 <= i < |data| ==> dev[i] == data[i])
    && (forall i :: |data| <= i < |dev| ==> dev[i] == content[i])
  }

  /** Writing the next piece of `data` right after a written prefix extends
      the prefix. */
  lemma HoldsPrefixStep(dev: seq<byte>, content: seq<byte>, data: seq<byte>, pos: nat, b: nat)
    requires pos + b <= |data| && pos + b <= |dev|
    requires HoldsPrefix(dev, content, data[..pos])
    ensures HoldsPrefix(Overwrite(dev, pos, data[pos..pos + b]), content, data[..pos + b])
  {}

  /** Chunk k of an n-byte stream is taken by the device when it is written
      at its own offset: the oracle lets the write through and it fits. */
  ghost predicate ChunkTaken(writeOk: nat -> bool, n: nat, size: nat, k: nat)
  {
    writeOk(k) && ChunkEnd(n, k) <= size
  }

  /** The leading chunks, from k on, that the device takes: the index of the
      first chunk it refuses, or ChunkCount(n) when it takes them all. */
  ghost function CleanChunks(writeOk: nat -> bool, n: nat, size: nat, k: nat): (c: nat)
    requires k <= ChunkCount(n)
    ensures k <= c <= ChunkCount(n)
    ensures forall j :: k <= j < c ==> ChunkTaken(writeOk, n, size, j)
    ensures c < ChunkCount(n) ==> !ChunkTaken(writeOk, n, size, c)
    decreases ChunkCount(n) - k
  {
    if k == ChunkCount(n) || !ChunkTaken(writeOk, n, size, k) then k
    else CleanChunks(writeOk, n, size, k + 1)
  }

  /** A stream copied chunk by chunk up to `pos` on a device of `size` bytes,
      every write let through: each of those chunks was taken, so the first
      refused chunk, if any, lies at or past `pos`. */
  lemma WrittenChunksTaken(writeOk: nat -> bool, n: nat, size: nat, pos: nat)
    requires pos <= n && pos <= size && (pos % ChunkSize == 0 || pos == n)
    requires forall j :: 0 <= j < ChunkCount(pos) ==> writeOk(j)
    ensures ChunkCount(pos) <= ChunkCount(n)
    ensures ChunkCount(pos) <= CleanChunks(writeOk, n, size, 0)
  {
    forall j | 0 <= j < ChunkCount(pos)
      ensures ChunkTaken(writeOk, n, size, j)
    {
      if pos < n {
        assert ChunkCount(pos) == pos / ChunkSize;
        MultiplyLe(j + 1, pos / ChunkSize, ChunkSize);
        DivMod(pos, ChunkSize);
      }
    }
  }

  /** The progress value `(done * 100) / total` of the transfer loops. */
  function Percent(done: nat, total: nat): nat
    requires total > 0
  {
    done * 100 / total
  }

  lemma PercentBounds(done: nat, total: nat)
    requires 0 < total && done <= total
    ensures Percent(done, total) <= 100
    ensures done == total ==> Percent(done, total) == 100
  {
    var q := done * 100 / total;
    DivMod(done * 100, total);
    MultiplyLe(done, total, 100);
    assert total * q <= total * 100;
    MultiplyLeCancel(q, 100, total);
    if done == total {
      DivUnique(total * 100, total, 100, 0);
    }
  }

  lemma PercentMonotone(a: nat, b: nat, total: nat)
    requires 0 < total && a <= b
    ensures Percent(a, total) <= Percent(b, total)
  {
    var qa, qb := a * 100 / total, b * 100 / total;
    DivMod(a * 100, total);
    DivMod(b * 100, total);
    MultiplyLe(a, b, 100);
    if qa > qb {
      // total * (qb + 1) <= total * qa <= a * 100 <= b * 100 < total * (qb + 1)
      MultiplyLe(qb + 1, qa, total);
      assert false;
    }
  }

  /** The progress bar is never asked for more than 100%. */
  ghost predicate ProgressBounded(p: seq<nat>)
  {
    forall i :: 0 <= i < |p| ==> p[i] <= 100
  }

  /** A progress trace stays within 0..100 and never goes down. */
  ghost predicate ProgressOk(p: seq<nat>)
  {
    && ProgressBounded(p)
    && (forall i, j :: 0 <= i <= j < |p| ==> p[i] <= p[j])
  }

  /** Appending a value within bounds and no lower than the last keeps a
      progress trace in order. */
  lemma ProgressAppend(p: seq<nat>, v: nat)
    requires ProgressOk(p) && v <= 100
    requires |p| > 0 ==> p[|p| - 1] <= v
    ensures ProgressOk(p + [v])
  {}

  /** The loops' progress step: after a chunk the count moves from `before`
      to `after`, and the trace gains the new percentage in order. */
  lemma ProgressStep(p: seq<nat>, before: nat, after: nat, total: nat)
    requires 0 < total && before <= after <= total
    requires ProgressOk(p)
    requires |p| > 0 ==> p[|p| - 1] == Percent(before, total)
    ensures ProgressOk(p + [Percent(after, total)])
  {
    PercentBounds(after, total);
    if |p| > 0 {
      PercentMonotone(before, after, total);
    }
    ProgressAppend(p, Percent(after, total));
  }

  /** The cancel flag as the single worker sees it: polls are numbered from
      0, and once the user sets the flag every later poll reads it set. */
  datatype CancelFlag = NeverSet | SetBeforePoll(poll: nat)

  predicate Seen(flag: CancelFlag, poll: nat)
  {
    flag.SetBeforePoll? && flag.poll <= poll
  }

  /** A device handle the program may fail to open, over the device's bytes. */
  datatype Target = Target(opens: bool, content: seq<byte>)
}

=== FILE: commands.dfy ===
/** The command lines and the diskpart script the program hands to child
    processes. What format.com, bootsect and diskpart then do to the disk is
    outside the program; a child process is only an exit status here. */
module Commands {
  import opened Util
  import opened Decimal
  import opened IsoInspect

  /** How a child process ended: CreateProcess failed, or it ran and exited
      with a code. */
  datatype ProcessResult = NotLaunched | Exited(code: nat)

  /** A command line handed to a child process and the caller's verdict. */
  datatype Launch = Launch(command: string, ok: bool)

  /** Characters 4 and 5 of a raw device path `\\.\X:`: the drive "X:". */
  function DriveOf(device: string): string
    requires |device| >= 4
  {
    Substr(device, 4, 2)
  }

  /** The file system named by the file-system combo box selection: FAT32
      and NTFS for the first two entries, exFAT for anything else, including
      no selection at all. */
  function FileSystemFor(selection: int): (fs: string)
    ensures fs == "FAT32" <==> selection == 0
    ensures fs == "NTFS" <==> selection == 1
    ensures fs == "exFAT" <==> selection != 0 && selection != 1
  {
    if selection == 0 then "FAT32" else if selection == 1 then "NTFS" else "exFAT"
  }

  /** The switches that follow the file system in the format command. */
  function FormatSwitches(quickFormat: bool, volumeLabel: string): string
  {
    (if quickFormat then " /Q" else "")
      + (if |volumeLabel| > 0 then " /V:" + volumeLabel else "")
      + " /Y"
  }

  /** The format command of FormatDrive: format.com on the drive, the file
      system, then the switches, always ending in the no-questions switch. */
  function FormatCommand(device: string, fileSystem: string, volumeLabel: string, quickFormat: bool): (cmd: string)
    requires |device| >= 4
    ensures |cmd| >= 7 + |DriveOf(device)| + 5 + |fileSystem| + 3
    ensures cmd[..7] == "format " && cmd[7..7 + |DriveOf(device)|] == DriveOf(device)
    ensures cmd[7 + |DriveOf(device)|..12 + |DriveOf(device)| + |fileSystem|] == " /FS:" + fileSystem
    ensures cmd[|cmd| - 3..] == " /Y"
  {
    var drive, switches := DriveOf(device), FormatSwitches(quickFormat, volumeLabel);
    var cmd := "format " + drive + " /FS:" + fileSystem + switches;
    assert cmd[|cmd| - |switches|..] == switches;
    cmd
  }

  /** FormatDrive: launch the format command and succeed exactly when the
      process was created and exited with code 0. */
  function FormatDrive(device: string, fileSystem: string, volumeLabel: string, quickFormat: bool,
                       run: ProcessResult): (r: Launch)
    requires |device| >= 4
    ensures r.ok <==> run == Exited(0)
    ensures r.command == FormatCommand(device, fileSystem, volumeLabel, quickFormat)
  {
    Launch(FormatCommand(device, fileSystem, volumeLabel, quickFormat), run.Exited? && run.code == 0)
  }

  /** The settings a format command line carries. */
  datatype FormatRequest = FormatRequest(drive: string, fileSystem: string, volumeLabel: string, quickFormat: bool)

  /** Splits `s` before the first `sep`: the part before it, and the rest,
      which is empty or starts with `sep`. */
  function SplitAt(s: string, sep: char): (r: (string, string))
    ensures r.0 + r.1 == s
    ensures forall i :: 0 <= i < |r.0| ==> r.0[i] != sep
    ensures r.1 == [] || r.1[0] == sep
  {
    if s == [] then ([], [])
    else if s[0] == sep then ([], s)
    else
      var (a, b) := SplitAt(s[1..], sep);
      assert s == [s[0]] + (a + b);
      ([s[0]] + a, b)
  }

  lemma {:induction false} SplitAtConcat(a: string, b: string, sep: char)
    requires forall i :: 0 <= i < |a| ==> a[i] != sep
    requires b == [] || b[0] == sep
    ensures SplitAt(a + b, sep) == (a, b)
    decreases |a|
  {
    if a == [] {
      assert a + b == b;
    } else {
      assert (a + b)[1..] == a[1..] + b;
      SplitAtConcat(a[1..], b, sep);
      assert [a[0]] + a[1..] == a;
    }
  }

  /** Reads the switches back: " /Q" if present, then " /V:" and the label
      up to the final " /Y", or just " /Y". */
  function ParseSwitches(tail: string): Option<(bool, string)>
  {
    var quick := |tail| >= 3 && tail[..3] == " /Q";
    var rest := if quick then tail[3..] else tail;
    if rest == " /Y" then Some((quick, []))
    else if |rest| >= 8 && rest[..4] == " /V:" && rest[|rest| - 3..] == " /Y" then
      Some((quick, rest[4..|rest| - 3]))
    else None
  }

  lemma SwitchesRoundTrip(quickFormat: bool, volumeLabel: string)
    ensures var t := FormatSwitches(quickFormat, volumeLabel);
            |t| >= 3 && t[0] == ' ' && ParseSwitches(t) == Some((quickFormat, volumeLabel))
  {
    var t := FormatSwitches(quickFormat, volumeLabel);
    var rest := (if |volumeLabel| > 0 then " /V:" + volumeLabel else "") + " /Y";
    if quickFormat {
      assert t == " /Q" + rest;
      assert t[..3] == " /Q" && t[3..] == rest;
    } else {
      assert t == rest;
      assert t[..3][2] != " /Q"[2];
    }
    if |volumeLabel| > 0 {
      assert rest == " /V:" + volumeLabel + " /Y";
      assert |rest| >= 8 && rest != " /Y";
      assert rest[..4] == " /V:";
      assert rest[|rest| - 3..] == " /Y";
      assert rest[4..|rest| - 3] == volumeLabel;
    }
  }

  /** Reads a format command line back into its settings; None when the text
      does not have the shape FormatCommand gives it. The file system ends at
      the first space. */
  function ParseFormatCommand(cmd: string): Option<FormatRequest>
  {
    if |cmd| < 14 || cmd[..7] != "format " || cmd[9..14] != " /FS:" then None
    else
      var (fileSystem, tail) := SplitAt(cmd[14..], ' ');
      match ParseSwitches(tail)
      case None => None
      case Some((quick, volumeLabel)) => Some(FormatRequest(cmd[7..9], fileSystem, volumeLabel, quick))
  }

  /** Round trip: the command line determines the drive, the file system, the
      quick flag and the label it was built from, provided the file system
      name has no space. */
  lemma FormatCommandRoundTrip(device: string, fileSystem: string, volumeLabel: string, quickFormat: bool)
    requires |device| >= 6
    requires forall i :: 0 <= i < |fileSystem| ==> fileSystem[i] != ' '
    ensures ParseFormatCommand(FormatCommand(device, fileSystem, volumeLabel, quickFormat))
            == Some(FormatRequest(device[4..6], fileSystem, volumeLabel, quickFormat))
  {
    var tail := FormatSwitches(quickFormat, volumeLabel);
    var cmd := FormatCommand(device, fileSystem, volumeLabel, quickFormat);
    assert DriveOf(device) == device[4..6];
    assert cmd == "format " + device[4..6] + " /FS:" + fileSystem + tail;
    assert cmd[..7] == "format ";
    assert cmd[7..9] == device[4..6];
    assert cmd[9..14] == " /FS:";
    assert cmd[14..] == fileSystem + tail;
    SwitchesRoundTrip(quickFormat, volumeLabel);
    SplitAtConcat(fileSystem, tail, ' ');
  }

  /** The bootsect command of MakeBootable. */
  function BootsectCommand(device: string): string
    requires |device| >= 4
  {
    "bootsect /nt60 " + DriveOf(device) + " /mbr /force"
  }

  /** What MakeBootable did: the bootsect command when it ran one, and the
      result it reports. */
  datatype BootStep = BootStep(command: Option<string>, ok: bool)

  /** MakeBootable: bootsect is launched only for a UEFI or Hybrid image, the
      process result is ignored, and the call always reports success. */
  function MakeBootable(device: string, bootType: BootType, run: ProcessResult): (r: BootStep)
    requires |device| >= 4
    ensures r.ok
    ensures r.command.Some? <==> bootType == Uefi || bootType == Hybrid
    ensures r.command.Some? ==> r.command.value == BootsectCommand(device)
  {
    if bootType == Uefi || bootType == Hybrid then BootStep(Some(BootsectCommand(device)), true)
    else BootStep(None, true)
  }

  /** 2^64: the persistent size is a ULONGLONG, so the megabyte count wraps. */
  const TwoTo64: nat := 0x1_0000_0000_0000_0000

  /** The partition size diskpart is given, in megabytes. */
  function SizeMegabytes(sizeGB: nat): nat
  {
    (sizeGB * 1024) % TwoTo64
  }

  const SizePrefix: string := "create partition primary size="

  /** The four lines of the diskpart script, without their line ends. The
      disk selector is character 4 of the device path, the drive letter. */
  function DiskpartLines(device: string, sizeGB: nat): seq<string>
    requires |device| >= 4
  {
    [ "select disk " + Substr(device, 4, 1),
      SizePrefix + ToDecimal(SizeMegabytes(sizeGB)),
      "format fs=ext4 quick label=persistence",
      "assign" ]
  }

  /** Lines joined, each ended by a newline. */
  function JoinLines(lines: seq<string>): string
  {
    if lines == [] then [] else lines[0] + "\n" + JoinLines(lines[1..])
  }

  /** Splits text into newline-ended lines; a last line without a newline
      is kept as well. */
  function SplitLines(s: string): seq<string>
    decreases |s|
  {
    if s == [] then []
    else
      var (line, rest) := SplitAt(s, '\n');
      if rest == [] then [line] else [line] + SplitLines(rest[1..])
  }

  predicate NoNewline(s: string) { forall i :: 0 <= i < |s| ==> s[i] != '\n' }

  lemma {:induction false} SplitJoinLines(lines: seq<string>)
    requires forall j :: 0 <= j < |lines| ==> NoNewline(lines[j])
    ensures SplitLines(JoinLines(lines)) == lines
    decreases |lines|
  {
    if lines != [] {
      var rest := "\n" + JoinLines(lines[1..]);
      assert JoinLines(lines) == lines[0] + rest;
      SplitAtConcat(lines[0], rest, '\n');
      assert rest[1..] == JoinLines(lines[1..]);
      SplitJoinLines(lines[1..]);
      assert [lines[0]] + lines[1..] == lines;
    }
  }

  /** The diskpart script of CreatePersistentPartition. */
  function DiskpartScript(device: string, sizeGB: nat): string
    requires |device| >= 4
  {
    JoinLines(DiskpartLines(device, sizeGB))
  }

  /** CreatePersistentPartition: run `diskpart /s` on the script; success
      means only that the process was created, whatever its exit code. */
  function CreatePersistentPartition(device: string, sizeGB: nat, run: ProcessResult): (r: Launch)
    requires |device| >= 4
    ensures r.ok <==> run.Exited?
    ensures r.command == DiskpartScript(device, sizeGB)
  {
    Launch(DiskpartScript(device, sizeGB), run.Exited?)
  }

  /** The script's lines: none holds a newline, the selector is character 4
      of the device path and the size line is the prefix then the digits. */
  lemma DiskpartLinesShape(device: string, sizeGB: nat)
    requires |device| >= 5 && device[4] != '\n'
    ensures var lines := DiskpartLines(device, sizeGB);
            && |lines| == 4
            && (forall j :: 0 <= j < |lines| ==> NoNewline(lines[j]))
            && lines[0] == "select disk " + [device[4]]
            && lines[1][..|SizePrefix|] == SizePrefix
            && lines[1][|SizePrefix|..] == ToDecimal(SizeMegabytes(sizeGB))
  {
    var lines := DiskpartLines(device, sizeGB);
    var digits := ToDecimal(SizeMegabytes(sizeGB));
    var select := "select disk " + Substr(device, 4, 1);
    var size := SizePrefix + digits;
    assert Substr(device, 4, 1) == [device[4]];
    assert NoNewline(size) by {
      assert forall i :: |SizePrefix| <= i < |size| ==> size[i] == digits[i - |SizePrefix|];
    }
    assert lines == [select, size, "format fs=ext4 quick label=persistence", "assign"];
  }

  /** Reading the script back: four lines, the disk selector is the device
      path's character 4, and the size line reads back as sizeGB * 1024
      whenever that does not wrap. */
  lemma DiskpartScriptReadsBack(device: string, sizeGB: nat)
    requires |device| >= 5 && device[4] != '\n'
    requires sizeGB * 1024 < TwoTo64
    ensures var lines := SplitLines(DiskpartScript(device, sizeGB));
            && |lines| == 4
            && lines[0] == "select disk " + [device[4]]
            && |lines[1]| > |SizePrefix|
            && lines[1][..|SizePrefix|] == SizePrefix
            && ParseDecimal(lines[1][|SizePrefix|..]) == Some(sizeGB * 1024)
  {
    var lines := DiskpartLines(device, sizeGB);
    DiskpartLinesShape(device, sizeGB);
    SplitJoinLines(lines);
    assert SplitLines(DiskpartScript(device, sizeGB)) == lines;
    assert SizeMegabytes(sizeGB) == sizeGB * 1024;
    DecimalRoundTrip(sizeGB * 1024);
    assert lines[1][|SizePrefix|..] == ToDecimal(sizeGB * 1024);
  }
}

=== FILE: decimal.dfy ===
/** Decimal text of unsigned integers, as std::to_wstring renders them, and
    the reading that recovers the value from such text. */
module Decimal {
  import opened Util

  predicate IsDigit(c: char) { '0' <= c <= '9' }

  predicate AllDigits(s: string) { forall i :: 0 <= i < |s| ==> IsDigit(s[i]) }

  function DigitChar(d: nat): (c: char)
    requires d < 10
    ensures IsDigit(c)
  {
    ('0' as int + d) as char
  }

  function DigitValue(c: char): (d: nat)
    requires IsDigit(c)
    ensures d < 10
  {
    c as int - '0' as int
  }

  /** std::to_wstring of an unsigned value: the decimal digits, most
      significant first, with no leading zero (and "0" for zero). */
  function ToDecimal(n: nat): (s: string)
    ensures |s| >= 1 && AllDigits(s)
    ensures |s| > 1 ==> s[0] != '0'
    decreases n
  {
    if n < 10 then [DigitChar(n)] else ToDecimal(n / 10) + [DigitChar(n % 10)]
  }

  /** The value denoted by a string of decimal digits, most significant first. */
  function DigitsValue(s: string): nat
    requires AllDigits(s)
  {
    if |s| == 0 then 0 else DigitsValue(s[..|s| - 1]) * 10 + DigitValue(s[|s| - 1])
  }

  /** Reads a non-empty run of decimal digits; anything else is rejected. */
  function ParseDecimal(s: string): (r: Option<nat>)
    ensures r.Some? <==> |s| > 0 && AllDigits(s)
  {
    if |s| > 0 && AllDigits(s) then Some(DigitsValue(s)) else None
  }

  lemma {:induction false} DigitsValueOfDecimal(n: nat)
    ensures DigitsValue(ToDecimal(n)) == n
    decreases n
  {
    var s := ToDecimal(n);
    if n < 10 {
      assert s[..|s| - 1] == [];
    } else {
      assert s[..|s| - 1] == ToDecimal(n / 10);
      DigitsValueOfDecimal(n / 10);
    }
  }

  /** Reading the rendered text gives the value back. */
  lemma DecimalRoundTrip(n: nat)
    ensures ParseDecimal(ToDecimal(n)) == Some(n)
  {
    DigitsValueOfDecimal(n);
  }
}

=== FILE: device_catalog.dfy ===
/** The device list: which of the 26 drive letters become USB device entries,
    and the unit FormatSize picks for a byte count. Everything the operating
    system reports is an oracle. */
module DeviceCatalog {
  import opened Util
  import opened Commands

  /** The GetDriveType answers. */
  datatype DriveType = UnknownType | NoRootDir | Removable | Fixed | Remote | CdRom | RamDisk

  /** One entry of the device list. */
  datatype UsbDevice = UsbDevice(name: string, path: string, size: nat, isRemovable: bool)

  /** What the enumeration asks the system: the logical-drive bit mask, the
      drive type of a root path, the volume label of a root path (None when
      the query fails), the size of a raw device path (0 when the query
      fails), and the "%.2f" text of a byte count scaled to a unit index. */
  datatype DriveOracle = DriveOracle(
    mask: bv32,
    driveType: string -> DriveType,
    volumeLabel: string -> Option<string>,
    driveSize: string -> nat,
    numberText: (nat, nat) -> string)

  /** Drive letters A to Z are mask bits 0 to 25. */
  const DriveCount: nat := 26

  function DriveLetter(i: nat): char
    requires i < DriveCount
  {
    (65 + i) as char
  }

  /** `X:\`, the root path the type and label queries get. */
  function RootPath(letter: char): string { [letter, ':', '\\'] }

  /** `\\.\X:`, the raw device path. */
  function DevicePath(letter: char): string { "\\\\.\\" + [letter, ':'] }

  predicate BitSet(mask: bv32, i: nat)
    requires i < DriveCount
  {
    mask & (1 << i) != 0
  }

  // ---------------------------------------------------------------------------
  // FormatSize: the unit index

  const Units: seq<string> := ["B", "KB", "MB", "GB", "TB"]

  function Pow1024(k: nat): (p: nat)
    ensures p > 0
  {
    if k == 0 then 1 else 1024 * Pow1024(k - 1)
  }

  /** The unit index the division loop stops at, started from index k. */
  function UnitFrom(bytes: nat, k: nat): (u: nat)
    requires k <= 4 && (k == 0 || Pow1024(k) <= bytes)
    ensures k <= u <= 4
    ensures u == 0 || Pow1024(u) <= bytes
    ensures u == 4 || bytes < Pow1024(u + 1)
    decreases 4 - k
  {
    if k < 4 && bytes >= Pow1024(k + 1) then UnitFrom(bytes, k + 1) else k
  }

  /** The largest unit, up to TB, that the byte count reaches. */
  function UnitIndex(bytes: nat): (u: nat)
    ensures u < |Units|
    ensures u == 0 || Pow1024(u) <= bytes
    ensures u == 4 || bytes < Pow1024(u + 1)
  {
    UnitFrom(bytes, 0)
  }

  /** The unit index is the only index the two bounds allow. */
  lemma UnitIndexUnique(bytes: nat, u: nat)
    requires u <= 4
    requires u == 0 || Pow1024(u) <= bytes
    requires u == 4 || bytes < Pow1024(u + 1)
    ensures u == UnitIndex(bytes)
  {
    var v := UnitIndex(bytes);
    if u < v {
      PowMonotone(u + 1, v);
      assert false;
    } else if v < u {
      PowMonotone(v + 1, u);
      assert false;
    }
  }

  lemma PowMonotone(a: nat, b: nat)
    requires a <= b
    ensures Pow1024(a) <= Pow1024(b)
    decreases b
  {
    if a < b {
      PowMonotone(a, b - 1);
    }
  }

  /** `p * scaled` brackets the byte count; dividing `scaled` by 1024 keeps
      the bracket for the next unit. */
  lemma ScaleStep(bytes: nat, p: nat, scaled: nat)
    requires p > 0 && p * scaled <= bytes < p * (scaled + 1)
    ensures (1024 * p) * (scaled / 1024) <= bytes < (1024 * p) * (scaled / 1024 + 1)
  {
    var s, r := scaled / 1024, scaled % 1024;
    assert scaled == 1024 * s + r;
    MultiplyLe(1024 * s, scaled, p);
    assert (1024 * p) * s == p * (1024 * s);
    MultiplyLe(scaled + 1, 1024 * s + 1024, p);
    assert (1024 * p) * (s + 1) == p * (1024 * s + 1024);
  }

  /** The unit loop of FormatSize: divide by 1024 while the value is at
      least 1024 and a larger unit remains. Every threshold 1024^k is exactly
      a double and dividing a double by 1024 is exact, so the code's
      comparisons pick the same unit as these integer ones. The code keeps
      the fraction (1536 bytes give 1.5 KB); `scaled` is the integer part of
      the code's value for counts below 2^53, where the conversion to double
      is exact. From 2^53 bytes on the conversion may round, and the code's
      value can then differ from the exact quotient. */
  method ScaleSize(bytes: nat) returns (scaled: nat, unitIndex: nat)
    ensures unitIndex <= 4
    ensures unitIndex == 0 || Pow1024(unitIndex) <= bytes
    ensures unitIndex == 4 || bytes < Pow1024(unitIndex + 1)
    ensures unitIndex < 4 ==> scaled < 1024
    ensures unitIndex > 0 ==> scaled >= 1
    ensures scaled == bytes / Pow1024(unitIndex)
    // the loop stops at the unit FormatSize names
    ensures unitIndex == UnitIndex(bytes)
  {
    scaled, unitIndex := bytes, 0;
    while scaled >= 1024 && unitIndex < 4
      invariant unitIndex <= 4
      invariant Pow1024(unitIndex) * scaled <= bytes < Pow1024(unitIndex) * (scaled + 1)
      invariant unitIndex == 0 || Pow1024(unitIndex) <= bytes
      decreases 4 - unitIndex
    {
      MultiplyLe(1024, scaled, Pow1024(unitIndex));
      ScaleStep(bytes, Pow1024(unitIndex), scaled);
      scaled := scaled / 1024;
      unitIndex := unitIndex + 1;
    }
    var p := Pow1024(unitIndex);
    if unitIndex < 4 {
      MultiplyLe(scaled + 1, 1024, p);
    }
    DivUnique(bytes, p, scaled, bytes - p * scaled);
    UnitIndexUnique(bytes, unitIndex);
  }

  /** FormatSize: the number text for the chosen unit, a space, the unit;
      the text reads back as those three parts. */
  function FormatSize(bytes: nat, numberText: (nat, nat) -> string): (s: string)
    ensures var u := UnitIndex(bytes);
            var n := |s| - |Units[u]|;
            && n >= 1
            && s[n..] == Units[u]
            && s[n - 1] == ' '
            && s[..n - 1] == numberText(bytes, u)
  {
    var u := UnitIndex(bytes);
    var text := numberText(bytes, u);
    var r := text + " " + Units[u];
    assert r[|text| + 1..] == Units[u] && r[..|text|] == text;
    r
  }

  // ---------------------------------------------------------------------------
  // EnumerateUSBDevices

  /** Letter i is kept: its mask bit is set, it is removable and its size
      query gives a non-zero size. */
  predicate Qualifies(o: DriveOracle, i: nat)
    requires i < DriveCount
  {
    var letter := DriveLetter(i);
    && BitSet(o.mask, i)
    && o.driveType(RootPath(letter)) == Removable
    && o.driveSize(DevicePath(letter)) > 0
  }

  /** The name shown for a drive: "X:", then " (label)" when the label query
      succeeds with a non-empty label, then " - " and the formatted size. */
  function DeviceName(o: DriveOracle, letter: char, size: nat): (name: string)
    ensures |name| >= 2 && name[..2] == [letter, ':']
    ensures var tail := " - " + FormatSize(size, o.numberText);
            |name| >= 2 + |tail| && name[|name| - |tail|..] == tail
    // the label is shown, in parentheses, exactly when the query gives a non-empty one
    ensures var v := o.volumeLabel(RootPath(letter));
            v.Some? && |v.value| > 0 ==> |name| >= 5 + |v.value| && name[2..5 + |v.value|] == " (" + v.value + ")"
    ensures var v := o.volumeLabel(RootPath(letter));
            |name| == 5 + |FormatSize(size, o.numberText)| <==> !(v.Some? && |v.value| > 0)
  {
    var labelPart :=
      match o.volumeLabel(RootPath(letter))
      case Some(v) => if |v| > 0 then " (" + v + ")" else ""
      case None => "";
    [letter, ':'] + labelPart + " - " + FormatSize(size, o.numberText)
  }

  /** The entry built for drive letter i. */
  function Entry(o: DriveOracle, i: nat): UsbDevice
    requires i < DriveCount
  {
    var letter := DriveLetter(i);
    var size := o.driveSize(DevicePath(letter));
    UsbDevice(DeviceName(o, letter, size), DevicePath(letter), size, true)
  }

  /** The drive letter a device entry stands for, read from its path; a
      path too short to hold one gives a space, which names no drive. */
  function LetterOf(d: UsbDevice): char
  {
    if |d.path| > 4 then d.path[4] else ' '
  }

  /** What the entry of letter i promises. */
  lemma EntryFacts(o: DriveOracle, i: nat)
    requires i < DriveCount && Qualifies(o, i)
    ensures var d := Entry(o, i);
            && LetterOf(d) == DriveLetter(i)
            && IndexOf(d) == i
            && d.isRemovable
            && d.size > 0
            && d.path == DevicePath(LetterOf(d))
            && d.name[..2] == [LetterOf(d), ':']
            && 'A' <= LetterOf(d) <= 'Z'
  {}

  /** For each of the 26 letters, whether the enumeration keeps it. */
  function Keeps(o: DriveOracle): (f: seq<bool>)
    ensures |f| == DriveCount
    ensures forall i :: 0 <= i < DriveCount ==> f[i] == Qualifies(o, i)
  {
    seq(DriveCount, i requires 0 <= i < DriveCount => Qualifies(o, i))
  }

  /** The indices from i on whose flag is set, in increasing order. */
  function Kept(flags: seq<bool>, i: nat): seq<nat>
    requires i <= |flags|
    decreases |flags| - i
  {
    if i == |flags| then []
    else (if flags[i] then [i] else []) + Kept(flags, i + 1)
  }

  /** Every kept index has its flag set and lies at or after i. */
  lemma {:induction false} KeptSound(flags: seq<bool>, i: nat, j: nat)
    requires i <= |flags| && j < |Kept(flags, i)|
    ensures var n := Kept(flags, i)[j]; i <= n < |flags| && flags[n]
    decreases |flags| - i
  {
    var head := if flags[i] then [i] else [];
    assert Kept(flags, i) == head + Kept(flags, i + 1);
    if j >= |head| {
      KeptSound(flags, i + 1, j - |head|);
    }
  }

  /** Every index at or after i whose flag is set is kept. */
  lemma {:induction false} KeptComplete(flags: seq<bool>, i: nat, n: nat)
    requires i <= n < |flags| && flags[n]
    ensures n in Kept(flags, i)
    decreases n - i
  {
    var head := if flags[i] then [i] else [];
    assert Kept(flags, i) == head + Kept(flags, i + 1);
    if i < n {
      KeptComplete(flags, i + 1, n);
    }
  }

  /** The kept indices increase strictly. */
  lemma {:induction false} KeptAscending(flags: seq<bool>, i: nat, j: nat, k: nat)
    requires i <= |flags| && j < k < |Kept(flags, i)|
    ensures Kept(flags, i)[j] < Kept(flags, i)[k]
    decreases |flags| - i
  {
    var head := if flags[i] then [i] else [];
    var t := Kept(flags, i + 1);
    assert Kept(flags, i) == head + t;
    if j < |head| {
      KeptSound(flags, i + 1, k - |head|);
    } else {
      KeptAscending(flags, i + 1, j - |head|, k - |head|);
    }
  }

  /** The drive index an entry's letter stands for (26 when it is no letter). */
  function IndexOf(d: UsbDevice): nat
  {
    if 'A' <= LetterOf(d) <= 'Z' then LetterOf(d) as int - 65 else DriveCount
  }

  /** The entry of a qualifying letter: the one its path names. */
  predicate FromQualifying(o: DriveOracle, d: UsbDevice)
  {
    var n := IndexOf(d);
    n < DriveCount && Qualifies(o, n) && d == Entry(o, n)
  }

  /** Every listed device is the entry of a qualifying letter. */
  predicate ListSound(o: DriveOracle, devices: seq<UsbDevice>)
  {
    forall j :: 0 <= j < |devices| ==> FromQualifying(o, devices[j])
  }

  /** The drive indices the listed entries stand for. */
  function Indices(devices: seq<UsbDevice>): (r: seq<nat>)
    ensures |r| == |devices|
    ensures forall j :: 0 <= j < |devices| ==> r[j] == IndexOf(devices[j])
  {
    seq(|devices|, j requires 0 <= j < |devices| => IndexOf(devices[j]))
  }

  /** Every qualifying letter is listed (with ListSound: by its own entry). */
  predicate ListComplete(o: DriveOracle, devices: seq<UsbDevice>)
  {
    forall n: nat :: n < DriveCount && Qualifies(o, n) ==> n in Indices(devices)
  }

  /** The list is in strictly increasing letter order. */
  predicate ListSorted(devices: seq<UsbDevice>)
  {
    forall j, k :: 0 <= j < k < |devices| ==> LetterOf(devices[j]) < LetterOf(devices[k])
  }

  /** Each listed device is removable, non-empty, opened through `\\.\X:` and
      shown under a name starting "X:". */
  predicate ListShaped(devices: seq<UsbDevice>)
  {
    forall j :: 0 <= j < |devices| ==>
      && devices[j].isRemovable
      && devices[j].size > 0
      && 'A' <= LetterOf(devices[j]) <= 'Z'
      && devices[j].path == DevicePath(LetterOf(devices[j]))
      && |devices[j].name| >= 2
      && devices[j].name[..2] == [LetterOf(devices[j]), ':']
  }

  /** The entries of the kept letters, in order. */
  ghost predicate EntriesOf(o: DriveOracle, devices: seq<UsbDevice>, kept: seq<nat>)
  {
    && |devices| == |kept|
    && forall j :: 0 <= j < |kept| ==> kept[j] < DriveCount && devices[j] == Entry(o, kept[j])
  }

  /** The entries of the kept letters are well-formed, come from qualifying
      letters, cover every qualifying letter, and are in letter order. */
  lemma EntriesWellFormed(o: DriveOracle, devices: seq<UsbDevice>)
    requires EntriesOf(o, devices, Kept(Keeps(o), 0))
    ensures ListSorted(devices)
    ensures ListShaped(devices)
    ensures ListComplete(o, devices)
    ensures ListSound(o, devices)
  {
    EntriesSorted(o, devices);
    EntriesShapedSound(o, devices);
    EntriesComplete(o, devices);
  }

  lemma EntriesShapedSound(o: DriveOracle, devices: seq<UsbDevice>)
    requires EntriesOf(o, devices, Kept(Keeps(o), 0))
    ensures ListShaped(devices)
    ensures ListSound(o, devices)
  {
    var flags := Keeps(o);
    var kept := Kept(flags, 0);
    forall j | 0 <= j < |devices|
      ensures FromQualifying(o, devices[j])
      ensures && devices[j].isRemovable
              && devices[j].size > 0
              && 'A' <= LetterOf(devices[j]) <= 'Z'
              && devices[j].path == DevicePath(LetterOf(devices[j]))
              && |devices[j].name| >= 2
              && devices[j].name[..2] == [LetterOf(devices[j]), ':']
    {
      KeptSound(flags, 0, j);
      EntryFacts(o, kept[j]);
    }
  }

  lemma EntriesComplete(o: DriveOracle, devices: seq<UsbDevice>)
    requires EntriesOf(o, devices, Kept(Keeps(o), 0))
    ensures ListComplete(o, devices)
  {
    var flags := Keeps(o);
    var kept := Kept(flags, 0);
    forall n: nat | n < DriveCount && Qualifies(o, n)
      ensures n in Indices(devices)
    {
      KeptComplete(flags, 0, n);
      var j :| 0 <= j < |kept| && kept[j] == n;
      EntryFacts(o, n);
      assert Indices(devices)[j] == n;
    }
  }

  lemma EntriesSorted(o: DriveOracle, devices: seq<UsbDevice>)
    requires EntriesOf(o, devices, Kept(Keeps(o), 0))
    ensures ListSorted(devices)
  {
    var flags := Keeps(o);
    var kept := Kept(flags, 0);
    forall j, k | 0 <= j < k < |devices|
      ensures LetterOf(devices[j]) < LetterOf(devices[k])
    {
      KeptSound(flags, 0, j);
      KeptSound(flags, 0, k);
      KeptAscending(flags, 0, j, k);
      EntryFacts(o, kept[j]);
      EntryFacts(o, kept[k]);
    }
  }

  lemma KeptStep(flags: seq<bool>, i: nat, kept: seq<nat>)
    requires i < |flags|
    ensures kept + Kept(flags, i) == (kept + (if flags[i] then [i] else [])) + Kept(flags, i + 1)
  {
    assert Kept(flags, i) == (if flags[i] then [i] else []) + Kept(flags, i + 1);
  }

  lemma EntriesStep(o: DriveOracle, devices: seq<UsbDevice>, kept: seq<nat>, found: seq<UsbDevice>, i: nat)
    requires i < DriveCount && EntriesOf(o, devices, kept)
    requires found == if Qualifies(o, i) then [Entry(o, i)] else []
    ensures EntriesOf(o, devices + found, kept + (if Qualifies(o, i) then [i] else []))
  {}

  /** One iteration of the enumeration loop: the entry of letter i, or
      nothing when the letter does not qualify. */
  method ProbeDrive(o: DriveOracle, i: nat) returns (found: seq<UsbDevice>)
    requires i < DriveCount
    ensures Qualifies(o, i) ==> found == [Entry(o, i)]
    ensures !Qualifies(o, i) ==> found == []
  {
    found := [];
    if BitSet(o.mask, i) {
      var letter := DriveLetter(i);
      if o.driveType(RootPath(letter)) == Removable {
        var path := DevicePath(letter);
        var size := o.driveSize(path);
        if size > 0 {
          found := [UsbDevice(DeviceName(o, letter, size), path, size, true)];
        }
      }
    }
  }

  /** EnumerateUSBDevices: test mask bits 0 to 25 in order and keep each
      removable drive with a non-zero size. The result holds exactly the
      qualifying drives, in letter order, each with its raw device path. */
  method EnumerateUsbDevices(o: DriveOracle) returns (devices: seq<UsbDevice>)
    ensures ListSorted(devices)
    ensures ListShaped(devices)
    ensures ListComplete(o, devices)
    ensures ListSound(o, devices)
  {
    ghost var flags := Keeps(o);
    ghost var kept: seq<nat> := [];
    devices := [];
    var i := 0;
    while i < DriveCount
      invariant i <= DriveCount
      invariant kept + Kept(flags, i) == Kept(flags, 0)
      invariant EntriesOf(o, devices, kept)
      decreases DriveCount - i
    {
      var found := ProbeDrive(o, i);
      ghost var head: seq<nat> := if flags[i] then [i] else [];
      KeptStep(flags, i, kept);
      EntriesStep(o, devices, kept, found, i);
      devices := devices + found;
      kept := kept + head;
      i := i + 1;
    }
    EntriesWellFormed(o, devices);
  }

  /** The format and bootsect commands take characters 4 and 5 of an
      enumerated device path: exactly the drive "X:". */
  lemma DriveOfDevicePath(letter: char)
    ensures |DevicePath(letter)| == 6
    ensures DriveOf(DevicePath(letter)) == [letter, ':']
    ensures Substr(DevicePath(letter), 4, 1) == [letter]
  {}
}

=== FILE: iso_inspect.dfy ===
/** The image inspector: a signature check on the first volume descriptor
    of an ISO 9660 image and a substring heuristic for the firmware it boots
    on. Nothing here parses the file system; the classification is the
    program's own heuristic. */
module IsoInspect {
  import opened Util

  /** A logical sector of ISO 9660 holds 2048 bytes. */
  const SectorSize: nat := 2048

  /** Logical sector 16, the first volume descriptor: sectors 0 to 15 are the
      system area (section 6.2.1 of ECMA-119). */
  const DescriptorOffset: nat := 0x8000

  /** "CD001", the standard identifier in byte positions 2 to 6 of every
      volume descriptor (section 8.1.2 of ECMA-119), i.e. buffer bytes 1..5. */
  const StandardIdentifier: seq<byte> := [0x43, 0x44, 0x30, 0x30, 0x31]

  /** "EFI" and "efi", the firmware indicators searched for in the whole file. */
  const EfiUpper: seq<byte> := [0x45, 0x46, 0x49]
  const EfiLower: seq<byte> := [0x65, 0x66, 0x69]

  datatype BootType = Unknown | Bios | Uefi | Hybrid

  /** What the inspector reports about an image; `size` is None when the file
      could not be opened (the program leaves the field unset then). */
  datatype IsoInfo = IsoInfo(path: string, size: Option<nat>, isBootable: bool, bootType: BootType)

  /** The file either cannot be opened (None) or is long enough for the
      2048-byte read at offset 0x8000 to fill the whole sector buffer. */
  predicate Readable(file: Option<seq<byte>>)
  {
    file.Some? ==> |file.value| >= DescriptorOffset + SectorSize
  }

  /** The image carries "CD001" at bytes 1..5 of sector 16. */
  ghost predicate IdentifierPresent(image: seq<byte>)
  {
    |image| >= DescriptorOffset + 6 &&
    forall i :: 0 <= i < 5 ==> image[DescriptorOffset + 1 + i] == StandardIdentifier[i]
  }

  /** Either spelling of the firmware indicator occurs somewhere in the image. */
  ghost predicate MentionsEfi(image: seq<byte>)
  {
    Contains(image, EfiUpper) || Contains(image, EfiLower)
  }

  /** AnalyzeISO: read sector 16, compare bytes 1..5 with "CD001", and for a
      signed image search the whole file for "EFI", then for "efi". */
  function AnalyzeIso(path: string, file: Option<seq<byte>>): (info: IsoInfo)
    requires Readable(file)
    ensures info.path == path
    ensures info.size == if file.Some? then Some(|file.value|) else None
    ensures info.isBootable <==> file.Some? && IdentifierPresent(file.value)
    ensures info.bootType == Uefi <==> info.isBootable && MentionsEfi(file.value)
    ensures info.bootType == Bios <==> info.isBootable && !MentionsEfi(file.value)
    ensures info.bootType == Unknown <==> !info.isBootable
    ensures info.bootType != Hybrid
  {
    if file.None? then IsoInfo(path, None, false, Unknown)
    else
      var image := file.value;
      var sector := image[DescriptorOffset..DescriptorOffset + SectorSize];
      if sector[1..6] == StandardIdentifier then
        FindFromStartIffContains(image, EfiUpper);
        FindFromStartIffContains(image, EfiLower);
        var efi := Find(image, EfiUpper, 0).Some? || Find(image, EfiLower, 0).Some?;
        IsoInfo(path, Some(|image|), true, if efi then Uefi else Bios)
      else
        assert !IdentifierPresent(image) by {
          var k :| 0 <= k < 5 && sector[1 + k] != StandardIdentifier[k];
          assert image[DescriptorOffset + 1 + k] == sector[1 + k];
        }
        IsoInfo(path, Some(|image|), false, Unknown)
  }

  /** The descriptor type byte (buffer byte 0) and the version byte (buffer
      byte 6) play no part: two images that agree on bytes 1..5 of sector 16
      are classified alike as to bootability. */
  lemma BootableIgnoresTypeAndVersion(a: seq<byte>, b: seq<byte>)
    requires Readable(Some(a)) && Readable(Some(b))
    requires a[DescriptorOffset + 1..DescriptorOffset + 6] == b[DescriptorOffset + 1..DescriptorOffset + 6]
    ensures AnalyzeIso([], Some(a)).isBootable == AnalyzeIso([], Some(b)).isBootable
  {
    var sa := a[DescriptorOffset + 1..DescriptorOffset + 6];
    assert forall i :: 0 <= i < 5 ==> sa[i] == a[DescriptorOffset + 1 + i] && sa[i] == b[DescriptorOffset + 1 + i];
    assert IdentifierPresent(a) <==> IdentifierPresent(b);
  }
}

=== FILE: orchestrator.dfy ===
/** The START button: the guards StartOperation checks before launching a
    run, and the worker that runs analyse → format → write → boot → verify →
    persistent partition in order. Which failures abort the run and which are
    only warnings is the point of this module. The worker is one sequential
    thread; the user's cancel click reaches it as a CancelFlag. */
module Orchestrator {
  import opened Util
  import opened Chunks
  import opened IsoInspect
  import opened BlockWriter
  import opened Verifier
  import opened Commands
  import opened DeviceCatalog

  // ---------------------------------------------------------------------------
  // StartOperation's guards

  /** The program state StartOperation reads and writes. */
  datatype App = App(
    isRunning: bool,
    cancelRequested: bool,
    devices: seq<UsbDevice>,
    isoPath: string,
    selectedDevice: string)

  /** How a click on START ends. */
  datatype StartResult = CancelRequested | NotAdmin | NoDeviceSelected | NoIsoSelected | Declined | Launched

  /** CB_ERR: the device combo box has no selection. */
  const NoSelection: int := -1

  /** StartOperation before the worker thread: a click while a run is in
      progress only raises the cancel flag; otherwise the administrator
      check, the device selection and the ISO path are checked in that order,
      the chosen device path is recorded, and the run starts only when the
      user confirms. `isAdmin` is IsAdmin's answer and `confirmed` the answer
      to the warning dialog. */
  function StartOperation(app: App, isAdmin: bool, selection: int, confirmed: bool): (r: (StartResult, App))
    requires selection >= NoSelection
    ensures r.0 == Launched <==>
              !app.isRunning && isAdmin && 0 <= selection < |app.devices| && |app.isoPath| > 0 && confirmed
    ensures app.isRunning <==> r.0 == CancelRequested
    ensures r.0 == CancelRequested ==> r.1 == app.(cancelRequested := true)
    // a failed check has no side effect
    ensures r.0 in {NotAdmin, NoDeviceSelected, NoIsoSelected} ==> r.1 == app
    // each refusal is reported exactly when the earlier checks pass and its own fails
    ensures r.0 == NotAdmin <==> !app.isRunning && !isAdmin
    ensures r.0 == NoDeviceSelected <==> !app.isRunning && isAdmin && !(0 <= selection < |app.devices|)
    ensures r.0 == NoIsoSelected <==>
              !app.isRunning && isAdmin && 0 <= selection < |app.devices| && |app.isoPath| == 0
    ensures r.0 == Declined <==>
              !app.isRunning && isAdmin && 0 <= selection < |app.devices| && |app.isoPath| > 0 && !confirmed
    // the device is recorded before the question; declining changes nothing else
    ensures r.0 == Declined ==> r.1 == app.(selectedDevice := app.devices[selection].path)
    ensures r.0 == Launched ==>
              r.1 == app.(selectedDevice := app.devices[selection].path, isRunning := true, cancelRequested := false)
  {
    if app.isRunning then (CancelRequested, app.(cancelRequested := true))
    else if !isAdmin then (NotAdmin, app)
    else if selection == NoSelection || selection >= |app.devices| then (NoDeviceSelected, app)
    else if |app.isoPath| == 0 then (NoIsoSelected, app)
    else
      var chosen := app.(selectedDevice := app.devices[selection].path);
      if !confirmed then (Declined, chosen)
      else (Launched, chosen.(isRunning := true, cancelRequested := false))
  }

  /** Clicking again while a run is in progress changes nothing more: the
      cancel request is idempotent. */
  lemma CancelRequestIdempotent(app: App, isAdmin: bool, selection: int, confirmed: bool,
                                isAdmin2: bool, selection2: int, confirmed2: bool)
    requires app.isRunning && selection >= NoSelection && selection2 >= NoSelection
    ensures var once := StartOperation(app, isAdmin, selection, confirmed).1;
            StartOperation(once, isAdmin2, selection2, confirmed2).1 == once
  {}

  // ---------------------------------------------------------------------------
  // The worker

  /** The controls the worker reads. */
  datatype Settings = Settings(
    typedLabel: string,
    fsIndex: int,
    quickFormat: bool,
    verifyWrite: bool,
    createPersistent: bool)

  /** GetWindowText into a 256-character buffer keeps at most 255 characters. */
  const LabelCapacity: nat := 256

  function LabelText(typed: string): (text: string)
    ensures |text| == Min(|typed|, LabelCapacity - 1)
    ensures IsPrefix(text, typed)
  {
    typed[..Min(|typed|, LabelCapacity - 1)]
  }

  /** The worker passes a fixed size; the size edit box is never read. */
  const PersistentSizeGB: nat := 4

  /** What the worker's steps meet in the world: the ISO file (None when it
      will not open), the device's bytes before the run and whether its raw
      handle opens, each child process's result and what it does to the
      device, the per-chunk write and read answers, and the cancel flag. */
  datatype Environment = Environment(
    iso: Option<seq<byte>>,
    device: seq<byte>,
    deviceOpens: bool,
    formatRun: ProcessResult,
    formatEffect: seq<byte> -> seq<byte>,
    writeOk: nat -> bool,
    bootRun: ProcessResult,
    bootEffect: seq<byte> -> seq<byte>,
    readOk: nat -> bool,
    diskpartRun: ProcessResult,
    diskpartEffect: seq<byte> -> seq<byte>,
    cancel: CancelFlag)

  /** The exception texts that end a run. */
  const FormatFailed: string := "Format failed"
  const CancelledText: string := "Cancelled"
  const WriteFailed: string := "Write failed"
  const VerificationFailed: string := "Verification failed"

  const NotBootableWarning: string := "Warning: ISO may not be bootable"

  datatype Outcome = Completed | Failed(reason: string)

  /** What one run did: how it ended, the device afterwards, every progress
      value shown, the command lines and script handed to child processes,
      and the warnings logged. */
  datatype WorkerReport = WorkerReport(
    outcome: Outcome,
    device: seq<byte>,
    progress: seq<nat>,
    commands: seq<string>,
    warnings: seq<string>)

  /** The cancel polls of a run, numbered in order: one after the format,
      then the copy's polls from 1 (one before each of its ReadCount reads
      and one after the flush), then one after the copy, one before the
      verification and one before the persistent partition. */
  const FormatPoll: nat := 0
  const FirstCopyPoll: nat := 1

  function AfterCopyPoll(n: nat): nat { FirstCopyPoll + ReadCount(n) + 1 }
  function VerifyPoll(n: nat): nat { AfterCopyPoll(n) + 1 }
  function PersistPoll(n: nat): nat { AfterCopyPoll(n) + 2 }

  /** The device after the format step: format.com's effect when it ran. */
  function Formatted(env: Environment): seq<byte>
  {
    if env.formatRun.Exited? then env.formatEffect(env.device) else env.device
  }

  /** The device after a complete copy of the image. */
  function WithImage(content: seq<byte>, image: seq<byte>): seq<byte>
    requires |image| <= |content|
  {
    image + content[|image|..]
  }

  /** bootsect runs for a UEFI or Hybrid classification, and changes the
      device only when it was launched. */
  function Booted(env: Environment, bootType: BootType, content: seq<byte>): seq<byte>
  {
    if (bootType == Uefi || bootType == Hybrid) && env.bootRun.Exited? then env.bootEffect(content) else content
  }

  /** How a run ends, read off the code's order of checks: a format failure
      or a cancel seen right after it, then the copy and what follows it. */
  ghost function ExpectedOutcome(isoPath: string, env: Environment, s: Settings): Outcome
    requires Readable(env.iso)
  {
    if env.formatRun != Exited(0) then Failed(FormatFailed)
    else if Seen(env.cancel, FormatPoll) then Failed(CancelledText)
    else ExpectedAfterFormat(AnalyzeIso(isoPath, env.iso).bootType, env, s)
  }

  /** The copy went through and the cancel check right after it found the
      flag clear: the run goes on to bootsect and what follows. */
  ghost predicate CopyGoesThrough(env: Environment)
  {
    && WriteSucceeds(env.iso, Target(env.deviceOpens, Formatted(env)), env.writeOk, env.cancel, FirstCopyPoll)
    && !Seen(env.cancel, AfterCopyPoll(|env.iso.value|))
  }

  /** After a copy that went through: verification was asked for, the flag
      was clear at its poll, and the device as bootsect left it does not
      verify. */
  ghost predicate VerifyFails(env: Environment, s: Settings, bootType: BootType)
    requires CopyGoesThrough(env)
  {
    var image := env.iso.value;
    var onDevice := Booted(env, bootType, WithImage(Formatted(env), image));
    && s.verifyWrite && !Seen(env.cancel, VerifyPoll(|image|))
    && !VerifyPasses(Target(env.deviceOpens, onDevice), env.iso, env.readOk)
  }

  /** After a copy that went through: diskpart is launched when persistence
      was asked for, verification did not fail and the flag was clear at its
      poll. */
  ghost predicate PartitionRuns(env: Environment, s: Settings, bootType: BootType)
    requires CopyGoesThrough(env)
  {
    && !VerifyFails(env, s, bootType)
    && s.createPersistent
    && !Seen(env.cancel, PersistPoll(|env.iso.value|))
  }

  /** The child processes after a copy that went through, in order: bootsect
      for a UEFI or Hybrid image, then diskpart when it runs. */
  ghost function FinishCommands(device: string, env: Environment, s: Settings, bootType: BootType): seq<string>
    requires |device| >= 4 && CopyGoesThrough(env)
  {
    (if bootType == Uefi || bootType == Hybrid then [BootsectCommand(device)] else [])
      + (if PartitionRuns(env, s, bootType) then [DiskpartScript(device, PersistentSizeGB)] else [])
  }

  /** The device at the end of a run whose copy went through: the image over
      the formatted bytes, then bootsect's effect, then diskpart's when it
      was launched. */
  ghost function FinishedDevice(env: Environment, s: Settings, bootType: BootType): seq<byte>
    requires CopyGoesThrough(env)
  {
    var booted := Booted(env, bootType, WithImage(Formatted(env), env.iso.value));
    if PartitionRuns(env, s, bootType) && env.diskpartRun.Exited? then env.diskpartEffect(booted) else booted
  }

  /** What a copy that stopped early can leave: when both files opened, some
      prefix of the image over the old bytes; otherwise the old bytes. */
  ghost predicate CopyLeft(dev: seq<byte>, content: seq<byte>, iso: Option<seq<byte>>, opens: bool)
  {
    if iso.Some? && opens then exists k :: 0 <= k <= |iso.value| && HoldsPrefix(dev, content, iso.value[..k])
    else dev == content
  }

  /** A device the copy never touched is what a copy that stopped before
      its first chunk leaves. */
  lemma UntouchedIsCopyLeft(content: seq<byte>, iso: Option<seq<byte>>, opens: bool)
    ensures CopyLeft(content, content, iso, opens)
  {
    if iso.Some? && opens {
      assert HoldsPrefix(content, content, iso.value[..0]);
    }
  }

  /** How a run that got past the format ends: a failed copy (including one
      the cancel flag stopped), then a cancel seen after the copy, then a
      failed verification when one was asked for and the flag was still
      clear. Everything else, including a cancel first seen at the last two
      polls, ends as a success. */
  ghost function ExpectedAfterFormat(bootType: BootType, env: Environment, s: Settings): Outcome
  {
    if !WriteSucceeds(env.iso, Target(env.deviceOpens, Formatted(env)), env.writeOk, env.cancel, FirstCopyPoll)
    then Failed(WriteFailed)
    else if !CopyGoesThrough(env) then Failed(CancelledText)
    else if VerifyFails(env, s, bootType) then Failed(VerificationFailed)
    else Completed
  }

  /** The child processes of a whole run: the format, and after a clean
      format the steps that follow a copy that went through. */
  ghost function WorkerCommands(isoPath: string, device: string, env: Environment, s: Settings): seq<string>
    requires |device| >= 4 && Readable(env.iso)
  {
    [FormatCommand(device, FileSystemFor(s.fsIndex), LabelText(s.typedLabel), s.quickFormat)]
      + (if env.formatRun == Exited(0) && !Seen(env.cancel, FormatPoll) && CopyGoesThrough(env)
         then FinishCommands(device, env, s, AnalyzeIso(isoPath, env.iso).bootType)
         else [])
  }

  /** A cancel click that the copy sees, at one of its loop polls or at its
      check after the flush, surfaces as "Write failed", not "Cancelled". */
  lemma CancelDuringCopyIsWriteFailure(isoPath: string, env: Environment, s: Settings)
    requires Readable(env.iso) && env.iso.Some?
    requires env.formatRun == Exited(0)
    requires env.cancel.SetBeforePoll?
    requires FirstCopyPoll <= env.cancel.poll <= FirstCopyPoll + ReadCount(|env.iso.value|)
    ensures ExpectedOutcome(isoPath, env, s) == Failed(WriteFailed)
  {
    assert Seen(env.cancel, FirstCopyPoll + ReadCount(|env.iso.value|));
  }

  /** A cancel click first seen at the verification poll only skips the
      remaining steps: a run whose format and copy went through ends as a
      success, whatever the verification would have found. */
  lemma CancelBeforeVerifyCompletes(isoPath: string, env: Environment, s: Settings)
    requires Readable(env.iso) && env.iso.Some?
    requires env.formatRun == Exited(0)
    requires env.deviceOpens && |env.iso.value| <= |Formatted(env)|
    requires AllChunksAccepted(env.writeOk, |env.iso.value|)
    requires env.cancel == SetBeforePoll(VerifyPoll(|env.iso.value|))
    ensures ExpectedOutcome(isoPath, env, s) == Completed
  {
    var n := |env.iso.value|;
    assert !Seen(env.cancel, FirstCopyPoll + ReadCount(n));
    assert !Seen(env.cancel, AfterCopyPoll(n));
  }

  /** A cancel click first seen at the persistent-partition poll, or later,
      gives the run the same outcome as a flag never set. It is not without
      effect: see LateCancelDropsDiskpart. */
  lemma LateCancelKeepsOutcome(isoPath: string, env: Environment, s: Settings)
    requires Readable(env.iso) && env.iso.Some?
    requires env.cancel.SetBeforePoll? && env.cancel.poll >= PersistPoll(|env.iso.value|)
    ensures ExpectedOutcome(isoPath, env, s) == ExpectedOutcome(isoPath, env.(cancel := NeverSet), s)
  {
    var n := |env.iso.value|;
    assert !Seen(env.cancel, FormatPoll);
    assert !Seen(env.cancel, FirstCopyPoll + ReadCount(n));
    assert !Seen(env.cancel, AfterCopyPoll(n));
    assert !Seen(env.cancel, VerifyPoll(n));
  }

  /** What a cancel click first seen at the persistent-partition poll does
      change: the diskpart run that a clear flag would have launched is
      skipped, and every earlier child process is the same. */
  lemma LateCancelDropsDiskpart(isoPath: string, device: string, env: Environment, s: Settings)
    requires |device| >= 4 && Readable(env.iso) && env.iso.Some?
    requires env.formatRun == Exited(0)
    requires env.cancel == SetBeforePoll(PersistPoll(|env.iso.value|))
    requires CopyGoesThrough(env.(cancel := NeverSet))
    requires s.createPersistent && !VerifyFails(env.(cancel := NeverSet), s, AnalyzeIso(isoPath, env.iso).bootType)
    ensures WorkerCommands(isoPath, device, env.(cancel := NeverSet), s)
            == WorkerCommands(isoPath, device, env, s) + [DiskpartScript(device, PersistentSizeGB)]
  {
    var n := |env.iso.value|;
    assert !Seen(env.cancel, FormatPoll);
    assert !Seen(env.cancel, FirstCopyPoll + ReadCount(n));
    assert !Seen(env.cancel, AfterCopyPoll(n));
    assert !Seen(env.cancel, VerifyPoll(n));
    assert Seen(env.cancel, PersistPoll(n));
  }

  /** End to end: with a clean format, every chunk written and read back,
      no cancel click, and a bootsect run (if any) that leaves the image in
      place, a run that verifies its copy completes. What bootsect does to
      the device is outside the program, so this is what the run needs of it. */
  lemma CleanRunCompletes(isoPath: string, env: Environment, s: Settings)
    requires Readable(env.iso) && env.iso.Some?
    requires env.formatRun == Exited(0) && env.cancel == NeverSet
    requires env.deviceOpens && |env.iso.value| <= |Formatted(env)|
    requires AllChunksAccepted(env.writeOk, |env.iso.value|)
    requires AllChunksReadable(env.readOk, |env.iso.value|)
    requires IsPrefix(env.iso.value,
                      Booted(env, AnalyzeIso(isoPath, env.iso).bootType, WithImage(Formatted(env), env.iso.value)))
    ensures ExpectedOutcome(isoPath, env, s) == Completed
  {
    assert !Seen(env.cancel, FirstCopyPoll + ReadCount(|env.iso.value|));
  }

  /** A device holding the image over the rest of `content` is that image
      followed by the rest. */
  lemma HoldsImage(dev: seq<byte>, content: seq<byte>, image: seq<byte>)
    requires HoldsPrefix(dev, content, image)
    ensures dev == WithImage(content, image)
  {}

  /** The steps after a successful copy: bootsect, the optional verification
      and the optional persistent partition. */
  method FinishRun(device: string, env: Environment, s: Settings,
                   bootType: BootType, written: seq<byte>, n: nat)
    returns (failed: bool, dev: seq<byte>, progress: seq<nat>, commands: seq<string>)
    requires |device| >= 4
    ensures var onDevice := Booted(env, bootType, written);
            failed <==> s.verifyWrite && !Seen(env.cancel, VerifyPoll(n))
                        && !VerifyPasses(Target(env.deviceOpens, onDevice), env.iso, env.readOk)
    ensures ProgressBounded(progress)
    ensures |progress| >= 1 && progress[0] == 80
    // bootsect runs exactly for a UEFI or Hybrid image, and diskpart (on the
    // fixed 4 GB script) after it exactly when persistence was asked for, the
    // verification did not fail and the flag was still clear
    ensures commands ==
              (if bootType == Uefi || bootType == Hybrid then [BootsectCommand(device)] else [])
              + (if !failed && s.createPersistent && !Seen(env.cancel, PersistPoll(n))
                 then [DiskpartScript(device, PersistentSizeGB)] else [])
    // the device: bootsect's effect when it was launched, then diskpart's
    ensures var booted := Booted(env, bootType, written);
            dev == if !failed && s.createPersistent && !Seen(env.cancel, PersistPoll(n)) && env.diskpartRun.Exited?
                   then env.diskpartEffect(booted) else booted
  {
    progress := [80];
    commands := [];
    dev := written;
    var boot := MakeBootable(device, bootType, env.bootRun);
    if boot.command.Some? {
      commands := commands + [boot.command.value];
      if env.bootRun.Exited? {
        dev := env.bootEffect(dev);
      }
    }
    // MakeBootable always reports success, so its warning is never logged
    failed := false;
    if s.verifyWrite && !Seen(env.cancel, VerifyPoll(n)) {
      var verified, verifyProgress := VerifyWrite(Target(env.deviceOpens, dev), env.iso, env.readOk);
      progress := progress + verifyProgress;
      if !verified {
        return true, dev, progress, commands;
      }
    }
    if s.createPersistent && !Seen(env.cancel, PersistPoll(n)) {
      progress := progress + [95];
      var part := CreatePersistentPartition(device, PersistentSizeGB, env.diskpartRun);
      commands := commands + [part.command];
      if env.diskpartRun.Exited? {
        dev := env.diskpartEffect(dev);
      }
    }
  }

  lemma BoundedConcat(a: seq<nat>, b: seq<nat>)
    requires ProgressBounded(a) && ProgressBounded(b)
    ensures ProgressBounded(a + b)
  {
    assert forall i :: |a| <= i < |a + b| ==> (a + b)[i] == b[i - |a|];
  }

  /** The copy phase: WriteISOToUSB on the formatted device, as the rest of
      the worker needs it. */
  method CopyPhase(env: Environment) returns (ok: bool, dev: seq<byte>, progress: seq<nat>, nextPoll: nat)
    ensures ok <==> WriteSucceeds(env.iso, Target(env.deviceOpens, Formatted(env)), env.writeOk, env.cancel, FirstCopyPoll)
    ensures ok ==> |env.iso.value| <= |Formatted(env)|
                   && dev == WithImage(Formatted(env), env.iso.value)
                   && nextPoll == AfterCopyPoll(|env.iso.value|)
    // whatever happens, the device holds a prefix of the image over the formatted bytes
    ensures CopyLeft(dev, Formatted(env), env.iso, env.deviceOpens)
    ensures ProgressBounded(progress)
  {
    var formatted := Formatted(env);
    var w;
    ok, w := WriteIsoToUsb(env.iso, Target(env.deviceOpens, formatted), env.writeOk, env.cancel, FirstCopyPoll);
    if env.iso.Some? && env.deviceOpens {
      assert HoldsPrefix(w.device, formatted, env.iso.value[..w.bytesWritten]);
    }
    if ok {
      HoldsImage(w.device, formatted, env.iso.value);
    }
    return ok, w.device, w.progress, w.nextPoll;
  }

  /** The worker from the progress value 20 on: the copy, the poll after it,
      and the steps that follow. */
  method CopyAndFinish(device: string, env: Environment, s: Settings, bootType: BootType)
    returns (outcome: Outcome, dev: seq<byte>, progress: seq<nat>, commands: seq<string>)
    requires |device| >= 4
    ensures outcome == ExpectedAfterFormat(bootType, env, s)
    ensures ProgressBounded(progress)
    ensures |progress| >= 2 && progress[0] == 20
    ensures outcome == Completed <==> progress[|progress| - 1] == 100
    ensures outcome.Failed? <==> progress[|progress| - 1] == 0
    ensures outcome == Completed && commands == [] ==> IsPrefix(env.iso.value, dev)
    // a failed copy or a cancel right after it launches nothing more and
    // leaves the device as the copy left it
    ensures commands == if CopyGoesThrough(env) then FinishCommands(device, env, s, bootType) else []
    ensures CopyGoesThrough(env) ==> dev == FinishedDevice(env, s, bootType)
    ensures !CopyGoesThrough(env) ==> CopyLeft(dev, Formatted(env), env.iso, env.deviceOpens)
  {
    var wrote, written, copyProgress, nextPoll := CopyPhase(env);
    BoundedConcat([20], copyProgress);
    progress := [20] + copyProgress;
    commands := [];
    if !wrote {
      BoundedConcat(progress, [0]);
      return Failed(WriteFailed), written, progress + [0], commands;
    }
    var image := env.iso.value;
    if Seen(env.cancel, nextPoll) {
      BoundedConcat(progress, [0]);
      return Failed(CancelledText), written, progress + [0], commands;
    }
    var failed, finishProgress;
    failed, dev, finishProgress, commands := FinishRun(device, env, s, bootType, written, |image|);
    BoundedConcat(progress, finishProgress);
    progress := progress + finishProgress;
    if failed {
      BoundedConcat(progress, [0]);
      return Failed(VerificationFailed), dev, progress + [0], commands;
    }
    BoundedConcat(progress, [100]);
    assert commands == [] ==> dev == written;
    return Completed, dev, progress + [100], commands;
  }

  /** The worker thread of StartOperation, on the device path recorded by
      the guards. A thrown step ends the run with progress 0; a finished
      run ends with progress 100. */
  method Worker(isoPath: string, device: string, env: Environment, s: Settings) returns (r: WorkerReport)
    requires |device| >= 4
    requires Readable(env.iso)
    ensures r.outcome == ExpectedOutcome(isoPath, env, s)
    // the first child process is always the format, with the typed label cut to the buffer
    ensures |r.commands| >= 1
    ensures r.commands[0] == FormatCommand(device, FileSystemFor(s.fsIndex), LabelText(s.typedLabel), s.quickFormat)
    // a failed format aborts before anything is written
    ensures r.outcome == Failed(FormatFailed) ==> r.device == Formatted(env) && |r.commands| == 1
    // a non-bootable image is only a warning
    ensures NotBootableWarning in r.warnings <==> !AnalyzeIso(isoPath, env.iso).isBootable
    // progress: within 0..100, first 5%, last 100% exactly on success and 0% on failure
    ensures ProgressBounded(r.progress)
    ensures |r.progress| >= 2 && r.progress[0] == 5
    ensures r.outcome == Completed <==> r.progress[|r.progress| - 1] == 100
    ensures r.outcome.Failed? <==> r.progress[|r.progress| - 1] == 0
    // without bootsect or diskpart after it, a finished run leaves the image on the device
    ensures r.outcome == Completed && |r.commands| == 1 ==> IsPrefix(env.iso.value, r.device)
    // every child process the run launches, in order, and the device it leaves
    ensures r.commands == WorkerCommands(isoPath, device, env, s)
    ensures env.formatRun == Exited(0) && !Seen(env.cancel, FormatPoll) && CopyGoesThrough(env) ==>
              r.device == FinishedDevice(env, s, AnalyzeIso(isoPath, env.iso).bootType)
    ensures !(env.formatRun == Exited(0) && !Seen(env.cancel, FormatPoll) && CopyGoesThrough(env)) ==>
              CopyLeft(r.device, Formatted(env), env.iso, env.deviceOpens)
  {
    var info := AnalyzeIso(isoPath, env.iso);
    var warnings := if !info.isBootable then [NotBootableWarning] else [];
    var fmt := FormatDrive(device, FileSystemFor(s.fsIndex), LabelText(s.typedLabel), s.quickFormat, env.formatRun);
    var dev := if env.formatRun.Exited? then env.formatEffect(env.device) else env.device;
    if !fmt.ok || Seen(env.cancel, FormatPoll) {
      UntouchedIsCopyLeft(dev, env.iso, env.deviceOpens);
      StoppedAtFormat(isoPath, device, env, s);
    }
    if !fmt.ok {
      return WorkerReport(Failed(FormatFailed), dev, [5, 10, 0], [fmt.command], warnings);
    }
    if Seen(env.cancel, FormatPoll) {
      return WorkerReport(Failed(CancelledText), dev, [5, 10, 0], [fmt.command], warnings);
    }
    PastFormat(isoPath, device, env, s);
    var outcome, finalDevice, progress, commands := CopyAndFinish(device, env, s, info.bootType);
    BoundedConcat([5, 10], progress);
    return WorkerReport(outcome, finalDevice, [5, 10] + progress, [fmt.command] + commands, warnings);
  }

  /** A run stopped by the format step launches nothing after format.com. */
  lemma StoppedAtFormat(isoPath: string, device: string, env: Environment, s: Settings)
    requires |device| >= 4 && Readable(env.iso)
    requires !(env.formatRun == Exited(0) && !Seen(env.cancel, FormatPoll))
    ensures ExpectedOutcome(isoPath, env, s) == if env.formatRun != Exited(0) then Failed(FormatFailed) else Failed(CancelledText)
    ensures WorkerCommands(isoPath, device, env, s)
            == [FormatCommand(device, FileSystemFor(s.fsIndex), LabelText(s.typedLabel), s.quickFormat)]
  {}

  /** A run past the format step launches what follows the copy. */
  lemma PastFormat(isoPath: string, device: string, env: Environment, s: Settings)
    requires |device| >= 4 && Readable(env.iso)
    requires env.formatRun == Exited(0) && !Seen(env.cancel, FormatPoll)
    ensures ExpectedOutcome(isoPath, env, s) == ExpectedAfterFormat(AnalyzeIso(isoPath, env.iso).bootType, env, s)
    ensures WorkerCommands(isoPath, device, env, s)
            == [FormatCommand(device, FileSystemFor(s.fsIndex), LabelText(s.typedLabel), s.quickFormat)]
               + (if CopyGoesThrough(env) then FinishCommands(device, env, s, AnalyzeIso(isoPath, env.iso).bootType) else [])
  {}

  /** A whole click on START that launches a run: the guards, the worker,
      and the final reset of the running flag. */
  method RunOperation(app: App, isAdmin: bool, selection: int, confirmed: bool, s: Settings, env: Environment)
    returns (result: StartResult, after: App, report: Option<WorkerReport>)
    requires selection >= NoSelection
    requires forall j :: 0 <= j < |app.devices| ==> |app.devices[j].path| >= 4
    requires Readable(env.iso)
    ensures result == StartOperation(app, isAdmin, selection, confirmed).0
    ensures report.Some? <==> result == Launched
    // the running flag is cleared on every outcome of a launched run
    ensures result == Launched ==> !after.isRunning
    ensures result == Launched ==>
              report.value.outcome == ExpectedOutcome(app.isoPath, env, s)
              && after.selectedDevice == app.devices[selection].path
    // the worker formats the device the user selected
    ensures result == Launched ==>
              |report.value.commands| >= 1 &&
              report.value.commands[0] ==
                FormatCommand(app.devices[selection].path, FileSystemFor(s.fsIndex), LabelText(s.typedLabel), s.quickFormat)
    // and every later child process, the device and the progress are the
    // worker's on that device path and the selected image
    ensures result == Launched ==>
              report.value.commands == WorkerCommands(app.isoPath, app.devices[selection].path, env, s)
    ensures result == Launched && env.formatRun == Exited(0) && !Seen(env.cancel, FormatPoll) && CopyGoesThrough(env) ==>
              report.value.device == FinishedDevice(env, s, AnalyzeIso(app.isoPath, env.iso).bootType)
    ensures result == Launched && !(env.formatRun == Exited(0) && !Seen(env.cancel, FormatPoll) && CopyGoesThrough(env)) ==>
              CopyLeft(report.value.device, Formatted(env), env.iso, env.deviceOpens)
    ensures result == Launched ==>
              var p := report.value.progress;
              && ProgressBounded(p) && |p| >= 2 && p[0] == 5
              && (report.value.outcome == Completed <==> p[|p| - 1] == 100)
              && (report.value.outcome.Failed? <==> p[|p| - 1] == 0)
    ensures result != Launched ==> after == StartOperation(app, isAdmin, selection, confirmed).1
  {
    var started := StartOperation(app, isAdmin, selection, confirmed);
    result, after := started.0, started.1;
    if result != Launched {
      return result, after, None;
    }
    var r := Worker(after.isoPath, after.selectedDevice, env, s);
    after := after.(isRunning := false, cancelRequested := env.cancel.SetBeforePoll?);
    report := Some(r);
  }
}

=== FILE: util.dfy ===
/** Small helpers shared by the model: an Option type, bytes, the clamped
    `substr` of std::basic_string, and the first-occurrence search of
    std::basic_string::find. */
module Util {

  datatype Option<+T> = None | Some(value: T)

  type byte = bv8

  function Min(a: int, b: int): int { if a <= b then a else b }

  /** std::basic_string::substr(pos, count) when pos <= size(): at most
      `count` characters starting at `pos`. */
  function Substr<T>(s: seq<T>, pos: nat, count: nat): (r: seq<T>)
    requires pos <= |s|
    ensures |r| == Min(count, |s| - pos)
    ensures forall i :: 0 <= i < |r| ==> r[i] == s[pos + i]
  {
    if pos + count <= |s| then s[pos..pos + count] else s[pos..]
  }

  /** `pat` occurs in `s` starting at index `i`. */
  predicate OccursAt<T(==)>(s: seq<T>, pat: seq<T>, i: int)
  {
    0 <= i && i + |pat| <= |s| && s[i..i + |pat|] == pat
  }

  /** std::basic_string::find(pat, from): the first index at or after
      `from` where `pat` occurs, or None for npos. */
  function Find<T(==)>(s: seq<T>, pat: seq<T>, from: nat): (r: Option<nat>)
    ensures r.Some? ==> from <= r.value && OccursAt(s, pat, r.value)
    ensures r.Some? ==> forall j :: from <= j < r.value ==> !OccursAt(s, pat, j)
    ensures r.None? ==> forall j :: from <= j ==> !OccursAt(s, pat, j)
    decreases |s| - from
  {
    if from + |pat| > |s| then None
    else if s[from..from + |pat|] == pat then Some(from)
    else Find(s, pat, from + 1)
  }

  /** `pat` occurs somewhere in `s`. */
  ghost predicate Contains<T>(s: seq<T>, pat: seq<T>)
  {
    exists i :: OccursAt(s, pat, i)
  }

  /** The search finds something exactly when the pattern occurs. */
  lemma FindFromStartIffContains<T>(s: seq<T>, pat: seq<T>)
    ensures Find(s, pat, 0).Some? <==> Contains(s, pat)
  {
    var r := Find(s, pat, 0);
    if r.Some? {
      assert OccursAt(s, pat, r.value);
    }
  }

  /** `p` is a prefix of `s`. */
  predicate IsPrefix<T(==)>(p: seq<T>, s: seq<T>)
  {
    |p| <= |s| && s[..|p|] == p
  }

  // ---------------------------------------------------------------------------
  // Multiplication and division facts the solver does not find on its own

  lemma MultiplyLe(a: nat, b: nat, d: nat)
    requires a <= b
    ensures d * a <= d * b
  {
    assert d * b == d * a + d * (b - a);
  }

  /** Cancelling a positive factor from both sides of `<=`. */
  lemma MultiplyLeCancel(a: nat, b: nat, d: nat)
    requires d > 0 && d * a <= d * b
    ensures a <= b
  {
    if a > b {
      MultiplyLe(b + 1, a, d);
      assert false;
    }
  }

  /** Division is determined by quotient and remainder. */
  lemma DivUnique(a: nat, d: nat, q: nat, r: nat)
    requires d > 0 && a == d * q + r && r < d
    ensures a / d == q
  {
    var q0 := a / d;
    if q0 < q {
      MultiplyLe(q0 + 1, q, d);
      assert false;
    } else if q < q0 {
      MultiplyLe(q + 1, q0, d);
      assert false;
    }
  }

  /** Quotient and remainder of natural division. */
  lemma DivMod(a: nat, d: nat)
    requires d > 0
    ensures a == d * (a / d) + a % d && 0 <= a % d < d
  {}
}

=== FILE: verifier.dfy ===
/** The read-back check: reread the image and the device in 1 MiB chunks
    from offset 0 and compare them, stopping at the first chunk that fails.
    It never polls the cancel flag: nothing in its signature can see it. */
module Verifier {
  import opened Util
  import opened Chunks

  /** Every device read for the non-empty chunks of an n-byte image succeeds. */
  ghost predicate AllChunksReadable(readOk: nat -> bool, n: nat)
  {
    forall k :: 0 <= k < ChunkCount(n) ==> readOk(k)
  }

  /** The check passes: both files open, every chunk read succeeds and the
      device begins with the image. */
  ghost predicate VerifyPasses(target: Target, iso: Option<seq<byte>>, readOk: nat -> bool)
  {
    && iso.Some?
    && target.opens
    && AllChunksReadable(readOk, |iso.value|)
    && IsPrefix(iso.value, target.content)
  }

  /** The verification's chunk loop, which runs to the end of the image or
      the first mismatch, over an image and a device that both opened.
      `readOk(k)` is the oracle answer of ReadFile for chunk k; the fake
      refuses a read past the device's end. */
  method CompareChunks(image: seq<byte>, dev: seq<byte>, readOk: nat -> bool)
    returns (verified: bool, pos: nat, progress: seq<nat>)
    ensures verified <==> AllChunksReadable(readOk, |image|) && IsPrefix(image, dev)
    ensures pos <= |image| && pos <= |dev|
    ensures forall i :: 0 <= i < pos ==> dev[i] == image[i]
    ensures verified ==> pos == |image|
    // a failure is the first chunk that cannot be read or differs
    ensures !verified ==>
      && pos % ChunkSize == 0
      && var k := pos / ChunkSize;
      && k < ChunkCount(|image|)
      && (forall j :: 0 <= j < k ==> readOk(j))
      && (|| !readOk(k)
          || ChunkEnd(|image|, k) > |dev|
          || dev[pos..ChunkEnd(|image|, k)] != image[pos..ChunkEnd(|image|, k)])
    ensures |progress| == ChunkCount(pos)
    ensures ProgressOk(progress)
    ensures |progress| > 0 ==> |image| > 0 && progress[|progress| - 1] == Percent(pos, |image|)
  {
    var n := |image|;
    pos := 0;
    var eof := false;
    verified := true;
    progress := [];
    while !eof
      invariant pos <= n && pos <= |dev|
      invariant !eof ==> pos % ChunkSize == 0
      invariant eof ==> pos == n
      invariant forall i :: 0 <= i < pos ==> dev[i] == image[i]
      invariant forall j :: 0 <= j < ChunkCount(pos) ==> readOk(j)
      invariant |progress| == ChunkCount(pos)
      invariant ProgressOk(progress)
      invariant |progress| > 0 ==> n > 0 && progress[|progress| - 1] == Percent(pos, n)
      decreases n - pos, if eof then 0 else 1
    {
      var bytesRead := Min(ChunkSize, n - pos);
      eof := bytesRead < ChunkSize;
      if bytesRead > 0 {
        var k := pos / ChunkSize;
        ChunkAdvance(pos, n);
        if !(readOk(k) && pos + bytesRead <= |dev|) {
          return false, pos, progress;
        }
        if dev[pos..pos + bytesRead] != image[pos..pos + bytesRead] {
          assert !IsPrefix(image, dev);
          return false, pos, progress;
        }
        assert forall i :: pos <= i < pos + bytesRead ==> dev[i] == dev[pos..pos + bytesRead][i - pos];
        var before := pos;
        pos := pos + bytesRead;
        ProgressStep(progress, before, pos, n);
        progress := progress + [Percent(pos, n)];
      }
    }
    assert dev[..n] == image;
  }

  /** VerifyWrite: true exactly when the device begins with the image and
      every read succeeded; a file that will not open, a refused read and a
      mismatch all give the same false. */
  method VerifyWrite(target: Target, iso: Option<seq<byte>>, readOk: nat -> bool)
    returns (verified: bool, progress: seq<nat>)
    ensures verified <==> VerifyPasses(target, iso, readOk)
    ensures |progress| >= 1 && progress[0] == 0
    ensures ProgressOk(progress)
    ensures verified && |iso.value| > 0 ==> progress[|progress| - 1] == 100
  {
    // "Verifying data integrity..." at 0% comes before anything is opened
    progress := [0];
    if iso.None? || !target.opens {
      return false, progress;
    }
    var pos, chunkProgress;
    verified, pos, chunkProgress := CompareChunks(iso.value, target.content, readOk);
    assert ProgressOk([0] + chunkProgress) by {
      var p := [0] + chunkProgress;
      assert forall i :: 1 <= i < |p| ==> p[i] == chunkProgress[i - 1];
    }
    if verified && |iso.value| > 0 {
      PercentBounds(pos, |iso.value|);
    }
    progress := progress + chunkProgress;
  }

  /** Round trip: a device whose first bytes were replaced by the image
      passes the check whenever every read goes through. */
  lemma WrittenImageVerifies(image: seq<byte>, content: seq<byte>, dev: seq<byte>, readOk: nat -> bool)
    requires HoldsPrefix(dev, content, image)
    requires AllChunksReadable(readOk, |image|)
    ensures VerifyPasses(Target(true, dev), Some(image), readOk)
  {
    assert dev[..|image|] == image;
  }

  /** A single differing byte anywhere in the image's range (offset 0, the
      last byte, a chunk boundary) makes the check fail. */
  lemma OneByteDifferenceFails(target: Target, image: seq<byte>, readOk: nat -> bool, i: nat)
    requires i < |image| && i < |target.content| && target.content[i] != image[i]
    ensures !VerifyPasses(target, Some(image), readOk)
  {
    if |image| <= |target.content| {
      assert target.content[..|image|][i] == target.content[i];
    }
  }
}
